=== FILE: README.md ===
# FlixFluent player core in Dafny

FlixFluent is a browser app for learning Korean from videos. It plays a YouTube
video or a plain video file, polls the player for the current time, and shows the
subtitle cue that covers that time. Korean subtitles are cut into clickable words,
and each word carries a dictionary translation. This project models the
deterministic rules inside that app and proves properties about them. The React
wiring, timers and network calls around those rules are not modelled.

The modules follow the program's structure:

- `Cues` covers the subtitle cue lookup that runs on every poll tick
  (`updateCurrentSubtitle`).
- `PlaybackRate` covers the cyclic speed selector.
- `Player` models the player component's state as an immutable `Session`. Each
  handler is a pure step from one session to the next:
  - error codes, state-change notifications and toggle play;
  - seeking and the progress-bar click;
  - rate change, fullscreen and caption visibility;
  - the subtitle poll tick and the overlay condition.

  The handlers that talk to the backend return a `Step`: the next session, the
  command sent to the backend, and the message reported to the user. The
  state-change, caption-toggle and poll-tick handlers return the next
  `Session` alone. Whatever the backend returns, or throws, is a parameter.
- `TimeFormat` covers the `m:ss` clock, with JavaScript's `Math.floor` and
  truncating `%` written out.
- `VideoId` covers `extractYoutubeVideoId` and the choice between the YouTube
  and native backends. The parsed URL is a parameter.
- `SubtitleFetch` covers:
  - the mapping from proxy records to cues;
  - the failure routing of `fetchYoutubeSubtitles`;
  - the language fallback of `fetchSubtitlesWithFallback`.

  The outcome of each HTTP request is a parameter.
- `KoreanText` covers Hangul detection (`containsKorean`) and
  `processKoreanText`.
- `Segmentation` covers `text.split(/\s+/)` followed by dropping empty strings.
  The split follows the ECMAScript algorithm. Any text is whitespace runs around
  whitespace-free words (`Segmentation.LayoutOf`). Its split and its tokens are
  stated for every such layout, with arbitrary runs and possibly empty edge runs.
- `SubtitleDisplay` covers what the overlay renders: the whole line, or one card
  per word with its translation.
- `Options`, `Seqs` and `Strings` are shared helpers:
  - an option type;
  - `indexOf`, first-match search and first-occurrence filtering;
  - decimal text and substring search.

Times are exact `real`s. JavaScript numbers are IEEE 754 binary64 floats, and
the model does not model their rounding, NaN or infinities. Strings are
sequences of Unicode scalar values. JavaScript strings are sequences of UTF-16
code units, and two places depend on that difference:

- **Bare-id length.** The test `url.length === 11` counts code units, so the
  model counts a character above U+FFFF as two (`Strings.Utf16Length`).
- **Hangul ranges.** These lie in the Basic Multilingual Plane, below the
  surrogate block, so testing code units and testing characters give the same
  answer.

Three behaviours of the code as written are easy to miss, and the model follows
the code in each:

- **Request outcome.** In `fetchYoutubeSubtitles` and
  `fetchSubtitlesWithFallback`, the request line is commented out and
  `let response;` is never assigned. Reading `response.ok` therefore throws, and
  as written both functions always return the fallback list. The model takes the
  request outcome as a parameter. The as-written behaviour is the outcome
  `Threw` (`SubtitleFetch.FetchFailuresFallBack`).
- **Error field.** `fetchSubtitlesWithFallback` does not look at the response's
  `error` field, while `fetchYoutubeSubtitles` does. The model keeps that
  difference: compare `ServesLanguage` with `Serves`.
- **Shared boundaries.** Cue bounds are inclusive on both ends, so at a boundary
  shared by two adjacent cues the earlier-listed cue is shown.

## Model

| member | source | states |
|---|---|---|
| Cues.UpdateCurrentSubtitle | src/components/VideoPlayer.tsx:193-201 | the poll's scan returns the text of the first cue in list order whose inclusive interval holds the time, and the empty string when no cue holds it |
| Cues.ActiveText | src/components/VideoPlayer.tsx:193-201 | the reference lookup: the text of the first cue in list order whose inclusive interval holds the time, and the empty string when none holds it |
| Cues.UpdateMatchesActiveText | src/components/VideoPlayer.tsx:193-201 | any result meeting the scan's contract equals the reference lookup (the first index satisfying the covering predicate) |
| Cues.EarlierCueWins | src/components/VideoPlayer.tsx:194-198 | when two listed cues both hold the time, the text shown comes from a cue no later than the earlier of them |
| Cues.DisjointLookup | src/components/VideoPlayer.tsx:194-198 | for pairwise disjoint cues, the lookup returns the text of the one cue holding the time, whatever the list order |
| Cues.UncoveredIsEmpty | src/components/VideoPlayer.tsx:200 | a time outside every cue clears the subtitle to the empty string |
| Cues.TwoCueExample | src/components/VideoPlayer.tsx:194-200 | with cues (0,5,A) and (5,10,B): time 3 shows A, the shared boundary 5 shows A, 7 shows B, and 12 shows nothing |
| PlaybackRate.RateIndex | src/components/VideoPlayer.tsx:419-420 | the rate's position in [0.5, 0.75, 1, 1.25, 1.5, 2], and -1 exactly when the rate is not listed |
| PlaybackRate.RateIndexIsIndexOf | src/components/VideoPlayer.tsx:420 | that position agrees with JavaScript `indexOf` on the rate list |
| PlaybackRate.NextRate | src/components/VideoPlayer.tsx:419-422 | a listed rate at index i steps to the rate at (i+1) mod 6; an unlisted rate steps to 0.5 |
| PlaybackRate.NextRateListed | src/components/VideoPlayer.tsx:421-422 | the next rate is always one of the six listed rates |
| PlaybackRate.NextRateTable | src/components/VideoPlayer.tsx:419-422 | the six transitions 0.5→0.75→1→1.25→1.5→2→0.5 |
| PlaybackRate.PressesAdvance | src/components/VideoPlayer.tsx:419-422 | n presses from the rate at index i give the rate at (i+n) mod 6 |
| PlaybackRate.SixPressesReturn | src/components/VideoPlayer.tsx:419-422 | six presses from any listed rate return to it |
| PlaybackRate.CycleIsMinimal | src/components/VideoPlayer.tsx:419-422 | between one and five presses never return to the starting listed rate |
| PlaybackRate.UnlistedJoinsCycle | src/components/VideoPlayer.tsx:420-422 | from an unlisted rate, n+1 presses give the listed rate at n mod 6 |
| Player.NewSessionState | src/components/VideoPlayer.tsx:27-42 | a fresh player is paused at rate 1, a listed rate, windowed, with captions on, no overlay and no error |
| Player.ErrorMessage | src/components/VideoPlayer.tsx:141-158 | code 2, 5, 100, 101 or 150 gets its fixed message; every other code gets "An unknown error occurred" |
| Player.ErrorMessageIdentifiesCategory | src/components/VideoPlayer.tsx:144-158 | two codes share a message exactly when they fall in the same case group of the switch |
| Player.EmbedRefusedIff | src/components/VideoPlayer.tsx:154-156 | the embed-refusal message is shown exactly for codes 101 and 150 |
| Player.OnYoutubeError | src/components/VideoPlayer.tsx:134-168 | the error handler records the code's message, reports the same message to the user, sends no backend call and changes nothing else |
| Player.OnStateChange | src/components/VideoPlayer.tsx:307-318 | state 1 sets playing, state 2 clears it, any other state leaves the session unchanged, and no other field moves |
| Player.OnStateChangeIdempotent | src/components/VideoPlayer.tsx:307-318 | a repeated notification changes nothing further |
| Player.StateChangesFollowLastPlayPause | src/components/VideoPlayer.tsx:307-318 | after any run of notifications, the flag equals the last 1-or-2 notification (or the initial flag when there is none), and no other field changes |
| Player.TogglePlay | src/components/VideoPlayer.tsx:345-376 | toggling never changes the session; it sends pause when playing and play otherwise, exactly when a player exists; a failure yields a report, except for a native pause; the report is "Could not control YouTube playback." for YouTube and "Could not play the video. " followed by the rejection's message for a native video |
| Player.ThrowingPauseKeepsState | src/components/VideoPlayer.tsx:348-361 | a YouTube pause that throws leaves playing set and reports "Could not control YouTube playback." |
| Player.ToggleThenNotifyFlips | src/components/VideoPlayer.tsx:345-376 | a toggle followed by the backend's matching notification flips the playing flag |
| Player.SeekTarget | src/components/VideoPlayer.tsx:383-384 | a relative seek target differs from the current time by exactly the requested amount, with no clamping |
| Player.SeekBy | src/components/VideoPlayer.tsx:379-392 | a seek goes out exactly when a player exists and its time could be read; it targets the reading plus the amount; the session is untouched |
| Player.SkipButtons | src/components/VideoPlayer.tsx:509-519 | the ±10 s buttons undo each other, and skipping back within the first 10 s targets a negative time |
| Player.ClickFraction | src/components/VideoPlayer.tsx:398-400 | the fraction times the bar's width is the click offset, and a click inside the bar gives a fraction in [0, 1] |
| Player.ProgressTarget | src/components/VideoPlayer.tsx:402-413 | the target divided by a positive duration is the fraction, and a zero duration targets 0; a fraction in [0, 1] targets a time within [0, duration], with fraction 0 at 0 and fraction 1 at the duration |
| Player.ProgressTargetMonotone | src/components/VideoPlayer.tsx:405 | a click further right never targets an earlier time |
| Player.ClickSeeksProportionally | src/components/VideoPlayer.tsx:398-412 | the target of a click, times the bar's width, is the duration times the click's offset from the bar's left edge |
| Player.ProgressClick | src/components/VideoPlayer.tsx:395-415 | a seek goes out exactly when a player exists and its duration could be read; it targets duration × fraction, so a click inside the bar targets a time within the duration |
| Player.ChangePlaybackRate | src/components/VideoPlayer.tsx:418-437 | the session's rate becomes the next rate in the cycle (`PlaybackRate.NextRate`), a listed rate, whether or not the backend can be told; no other field changes; the same rate is sent to a native video element when it exists, and to a YouTube player only when it exists and `setPlaybackRate` is already a function |
| Player.SixRateChangesReturn | src/components/VideoPlayer.tsx:418-424 | six rate changes from a listed rate give back the original session, whether or not the backend can be told |
| Player.ToggleFullscreen | src/components/VideoPlayer.tsx:440-454 | without a container nothing happens; otherwise the matching request goes out and the flag flips at once; nothing else changes |
| Player.FullscreenTwiceRestores | src/components/VideoPlayer.tsx:440-454 | two presses restore the session, and the second request is the opposite of the first |
| Player.ToggleSubtitles | src/components/VideoPlayer.tsx:464-466 | only caption visibility changes, and it is negated |
| Player.SubtitlesTwiceRestores | src/components/VideoPlayer.tsx:464-466 | two caption toggles restore the session |
| Player.PollTick | src/components/VideoPlayer.tsx:178-187 | a tick with a readable time sets the subtitle to the cue lookup at that time; otherwise the session is unchanged |
| Player.LatestTickWins | src/components/VideoPlayer.tsx:178-187 | two ticks in a row leave the session the later tick alone would give |
| Player.ShownSubtitle | src/components/VideoPlayer.tsx:488-493 | the overlay appears exactly when captions are visible and the subtitle is non-empty, and it shows that subtitle |
| Player.OverlayFollowsTicks | src/components/VideoPlayer.tsx:488-493 | a tick at a time no cue covers removes the overlay, and hiding captions removes it whatever the tick found |
| TimeFormat.FloorsOfNonNegative | src/components/VideoPlayer.tsx:458-459 | for non-negative times, the floored quotient and the floored JavaScript remainder are the whole seconds divided by 60 and taken modulo 60 |
| TimeFormat.FormatTime | src/components/VideoPlayer.tsx:457-461 | for non-negative times the clock depends on the whole seconds only: the whole minutes, a colon, and the seconds below 60 as exactly two digits |
| TimeFormat.FormatTimeRoundTrip | src/components/VideoPlayer.tsx:457-461 | reading the clock back gives the whole seconds, so two non-negative times show the same clock exactly when their whole seconds agree |
| TimeFormat.FormatTimeExample | src/components/VideoPlayer.tsx:457-461 | 95.5 s shows "1:35" and 0 s shows "0:00" |
| TimeFormat.FormatTimeNegativeExample | src/components/VideoPlayer.tsx:458-460 | five seconds before zero shows "-1:0-5", because the minutes are floored while the remainder is truncated |
| Strings.NatToStringRoundTrip | src/components/VideoPlayer.tsx:460 | the decimal text of a whole number is non-empty, all digits, and parses back to the number |
| Strings.ContainsIff | src/utils/youtubeUtils.ts:25 | the `includes` scan is true exactly when the pattern occurs at some position |
| VideoId.ExtractVideoIdCases | src/utils/youtubeUtils.ts:14-40 | a bare id (a length of 11 UTF-16 code units, no '/' and no '.') is returned unchanged; an unparsable URL gives none; a host containing youtube.com gives the `v` parameter; the host youtu.be gives the path minus its first character; any other host gives none |
| VideoId.ExtractVideoId | src/utils/youtubeUtils.ts:14-40 | a bare id is returned as it is; any other id extracted comes from a parsed URL, either the `v` parameter of a host containing youtube.com or the path minus its first character on the host youtu.be |
| Strings.Utf16Length | src/utils/youtubeUtils.ts:16 | JavaScript's `length`: between the character count and twice it, and equal to the character count when no character lies above U+FFFF |
| VideoId.AstralCharacterCountsTwice | src/utils/youtubeUtils.ts:16-18 | a character above U+FFFF followed by nine characters within the plane, none '/' or '.', has length 11 and is returned as the id, though it is only ten characters |
| VideoId.EmojiIdExample | src/utils/youtubeUtils.ts:16-18 | an emoji followed by nine digits passes as a bare id |
| VideoId.ElevenAstralCharactersAreNoId | src/utils/youtubeUtils.ts:16 | eleven emoji have length 22 and are not taken as a bare id |
| VideoId.DirectIdInPlane | src/utils/youtubeUtils.ts:16 | for text within the Basic Multilingual Plane the bare-id test is eleven characters with no '/' and no '.' |
| VideoId.ContainsShortHost | src/utils/youtubeUtils.ts:25-33 | "youtu.be" does not contain "youtube.com", so the order of the two host tests does not matter |
| VideoId.ShortLinkRoundTrip | src/utils/youtubeUtils.ts:31-33 | the id written after youtu.be/ is the id extracted |
| VideoId.WatchLinkRoundTrip | src/utils/youtubeUtils.ts:25-28 | on any youtube.com host the `v` parameter is the id extracted |
| VideoId.IsYouTubeUrl | src/components/VideoPlayer.tsx:87-89 | the YouTube backend is chosen exactly when the extracted id is present and non-empty |
| VideoId.BackendChoiceExamples | src/components/VideoPlayer.tsx:87-89 | a bare id always selects YouTube, and a youtu.be link with an empty path does not |
| Seqs.IndexOf | src/utils/youtubeUtils.ts:101 | `indexOf`: the first position holding the value, and -1 exactly when the value is absent |
| Seqs.FirstOccurrencesSpec | src/utils/youtubeUtils.ts:101 | filtering on indexOf(x) == index leaves no duplicates, keeps every value, keeps the values in the order they first appear, and keeps the first element first |
| Seqs.KeepFirstFromOrdered | src/utils/youtubeUtils.ts:101 | the values the filter keeps from a position on come in the order of their first occurrence |
| SubtitleFetch.MapSubtitles | src/utils/youtubeUtils.ts:80-84 | one cue per record, in order, with start and text carried over, and the end at start plus duration (5 when the duration is missing or falsy) |
| SubtitleFetch.MappedCuesContainTheirStart | src/utils/youtubeUtils.ts:80-84 | a record with a non-negative duration gives a cue that holds its own start time |
| SubtitleFetch.MapSubtitlesRecoverable | src/utils/youtubeUtils.ts:113-117 | each cue gives back its record's start, and its record's duration or the default |
| SubtitleFetch.FetchYoutubeSubtitles | src/utils/youtubeUtils.ts:45-89 | an ok response with no error and a non-empty list gives its mapping, which is non-empty; every other outcome gives the fallback list |
| SubtitleFetch.FetchFailuresFallBack | src/utils/youtubeUtils.ts:53-87 | an exception, a non-ok status, an error field, a missing list and an empty list each give the fallback list |
| SubtitleFetch.LanguagesToTry | src/utils/youtubeUtils.ts:96-101 | the list is the preferred language followed by ko, en, auto in that order, minus the preferred one |
| SubtitleFetch.LanguagesToTrySpec | src/utils/youtubeUtils.ts:96-101 | no language repeats, the preferred one comes first, ko, en and auto are all present, and the length is 3 or 4 |
| SubtitleFetch.TryLanguagesFirstServing | src/utils/youtubeUtils.ts:103-127 | the loop returns the mapping of the first language in list order whose response is ok with a non-empty list, or the fallback list when none is |
| SubtitleFetch.TryLanguages | src/utils/youtubeUtils.ts:103-127 | the loop's result is the fallback list or the mapping served by one of the listed languages |
| SubtitleFetch.FetchWithFallbackOutcomes | src/utils/youtubeUtils.ts:95-128 | a serving preferred language is used without consulting others, and when no language serves, the fallback list is returned |
| SubtitleFetch.FetchSubtitlesWithFallback | src/utils/youtubeUtils.ts:95-128 | the result is the fallback list or the mapping served by one of the languages tried |
| KoreanText.ContainsKorean | src/components/SubtitleDisplay.tsx:21-24 | true exactly when some character lies in U+AC00–D7AF, U+1100–11FF, U+3130–318F, U+A960–A97F or U+D7B0–D7FF |
| KoreanText.ProcessedUnitsAreKorean | src/utils/youtubeUtils.ts:191 | every character the processing regex matches is also detected as Korean |
| KoreanText.RunLength | src/utils/youtubeUtils.ts:191 | a `+` match takes the maximal run of matching characters: all inside match, and the next one does not |
| KoreanText.ReplaceRunsIdentity | src/utils/youtubeUtils.ts:189-195 | a global replace whose callback returns its match leaves the text unchanged |
| KoreanText.ProcessKoreanText | src/utils/youtubeUtils.ts:189-195 | `processKoreanText` returns its input unchanged |
| Segmentation.RunEnd | src/components/SubtitleDisplay.tsx:15 | a `\s+` match spans the maximal whitespace run: all inside is whitespace, and the next character is not |
| Segmentation.Split | src/components/SubtitleDisplay.tsx:15 | no piece of the `\s+` split contains whitespace, and the pieces laid end to end are the text with all whitespace removed |
| Segmentation.Segment | src/components/SubtitleDisplay.tsx:12-17 | no token is empty, no token contains whitespace, and the tokens laid end to end are the text with all whitespace removed |
| Segmentation.SegmentBlank | src/components/SubtitleDisplay.tsx:15-16 | empty or whitespace-only text has no tokens |
| Segmentation.SegmentWord | src/components/SubtitleDisplay.tsx:15-16 | non-empty text without whitespace is a single token, the text itself |
| Segmentation.LayoutOf | src/components/SubtitleDisplay.tsx:15 | every text is whitespace runs around non-empty whitespace-free words, with a non-empty run between any two words |
| Segmentation.SplitLayout | src/components/SubtitleDisplay.tsx:15 | the `\s+` split of words between whitespace runs is the words, with an empty piece in front for a leading run and one at the end for a trailing run; text with no words splits into one empty piece, or two when it is non-empty |
| Segmentation.SegmentLayout | src/components/SubtitleDisplay.tsx:12-17 | words between arbitrary whitespace runs segment back to exactly those words |
| Segmentation.SegmentIsLayoutWords | src/components/SubtitleDisplay.tsx:12-17 | the tokens of any text are its maximal whitespace-free stretches, in order |
| Segmentation.SplitWordRun | src/components/SubtitleDisplay.tsx:15 | a word, a non-empty whitespace run and a rest not starting with whitespace split into the word followed by the split of the rest |
| Segmentation.SegmentJoinRoundTrip | src/components/SubtitleDisplay.tsx:12-17 | non-empty whitespace-free words joined by single spaces segment back to the same words |
| SubtitleDisplay.Translate | src/components/SubtitleDisplay.tsx:46 | a present, non-empty dictionary entry is the translation; a missing or empty one gives "Translation not available"; the result is never empty |
| SubtitleDisplay.Render | src/components/SubtitleDisplay.tsx:26-46 | a subtitle without Korean is shown whole; a Korean one becomes one card per segmented word, in order, each with that word's translation |
| SubtitleDisplay.KoreanRenderingSpec | src/components/SubtitleDisplay.tsx:39-59 | a Korean subtitle renders at least one card; every card's word is non-empty and whitespace-free with a non-empty translation; the words spell the subtitle without its whitespace |
| SubtitleDisplay.SingleKoreanWord | src/components/SubtitleDisplay.tsx:39-53 | a Korean subtitle without spaces renders as exactly one card |

## Left out

- React effects, re-rendering and the `useState` update timing are not modelled. Each handler reads the session it is given, so stale closures are not modelled either.
- The `setInterval`/`clearInterval` lifecycle of the subtitle and progress trackers is not modelled. One tick is a single step (`Player.PollTick`).
- A toast raised by a modelled handler is the message its step reports; the toast's title and styling are not modelled. The toasts of the ready and metadata handlers are not modelled, since those handlers are left out. Console logging is not modelled.
- The native video's `TextTrack` `cuechange` listener and the metadata-load handler are not modelled. They are browser event plumbing.
- The native `play`/`pause` events set the same flag as YouTube states 1 and 2. They are covered by `Player.OnStateChange` and not modelled separately.
- The progress percentage (`currentTime / duration * 100` with its NaN guard) and the duration display are not modelled. Both depend on floating-point NaN and infinities.
- `parseFloat` of the proxy's `start` and `dur` is not modelled. Records carry real numbers already, and an absent or falsy `dur` is `None`, so a numeric `dur` of 0 counts as falsy and becomes 5, as in the source.
- `new URL(...)` and `URLSearchParams` are not modelled: their outcome is the `ParsedUrl` parameter, and `None` means the constructor threw.
- `fetch`, `response.json()` and the proxy server are not modelled. Each request's outcome is the `Response` parameter.
- The fallback subtitle list is a parameter: src/utils/fallbackSubtitles.ts is not part of this model.
- `loadYouTubeAPI`, `YT.Player` construction, `onYoutubeReady`'s autoplay and `loadVideoById` are third-party API calls and are not modelled.
- The Korean dictionary module is not part of this model. It is a `map<string, string>` parameter, so keys inherited through a JavaScript object's prototype are not modelled.
- `fetchWordTranslation` and the word-analysis helpers lie outside the player core and are not modelled.
- The DOM fullscreen API is not modelled. A missing `requestFullscreen`/`exitFullscreen` method still flips the flag in the source, and `Player.ToggleFullscreen` always names the request it would make.
- `Player.SeekTarget`: the difference `t - current == delta` is exact over reals; binary64 addition rounds, so in JavaScript it holds only up to rounding.
- `Player.ClickFraction`: `f * width == clientX - left` is exact over reals and holds only up to binary64 rounding in JavaScript. It also requires a positive bar width. JavaScript would divide by zero for an empty bar and give infinities or NaN, which reals cannot represent.
- `Player.ProgressTarget`: `t / duration == fraction` is exact over reals and holds only up to binary64 rounding in JavaScript. It also requires a non-negative duration. A NaN duration from a video element without metadata cannot be represented.
- `SubtitleFetch.MapSubtitlesRecoverable`: `end - start == dur` is exact over reals; in JavaScript the end is a rounded binary64 sum, so subtracting the start gives the duration back only up to rounding.
- `Player.SeekBy`: a native video's time is always readable. `reading` is `None` for a YouTube player whose `getCurrentTime` is not a function yet or threw; `Player.PollTick`'s reading and `Player.ProgressClick`'s duration are absent in the same cases.
- `Player.TogglePlay`: a native `pause()` never fails, so no report is possible for it.
- `TimeFormat.FormatTime`: its clock shape is stated for non-negative times only. `FormatTimeNegativeExample` shows what negative times produce.
- JavaScript's number-to-text conversion is modelled as plain decimal digits of an integer. `formatTime` only converts floored values, so this matches JavaScript for magnitudes below 10^21; from 10^21 on, JavaScript writes exponent form (`1e+21`), which the model does not reproduce.

=== FILE: cues.dfy ===
/** Time-synced subtitle cues and the lookup the YouTube poll performs every
    tick (`updateCurrentSubtitle` in src/components/VideoPlayer.tsx). */
module Cues {
  import opened Options
  import opened Seqs

  /** One `{start, end, text}` entry; times in seconds. */
  datatype Cue = Cue(start: real, end: real, text: string)

  /** Both bounds are inclusive. */
  predicate Covers(c: Cue, t: real)
  {
    c.start <= t <= c.end
  }

  /** The subtitle shown at time `t`: the text of the first cue in list order
      whose interval contains `t`, or the empty string when none does. */
  function ActiveText(cues: seq<Cue>, t: real): (text: string)
    ensures (forall j :: 0 <= j < |cues| ==> !Covers(cues[j], t)) ==> text == ""
    ensures forall i :: 0 <= i < |cues| && Covers(cues[i], t) ==>
                          (forall j :: 0 <= j < i ==> !Covers(cues[j], t)) ==> text == cues[i].text
  {
    match FirstIndex(cues, (c: Cue) => Covers(c, t))
    case Some(i) => cues[i].text
    case None => ""
  }

  /** The poll's scan: walks the list, returns the first covering cue's text,
      and the empty string once the list is exhausted. */
  method UpdateCurrentSubtitle(cues: seq<Cue>, t: real) returns (text: string)
    ensures (forall j :: 0 <= j < |cues| ==> !Covers(cues[j], t)) ==> text == ""
    ensures forall i :: 0 <= i < |cues| && Covers(cues[i], t) ==>
                          (forall j :: 0 <= j < i ==> !Covers(cues[j], t)) ==> text == cues[i].text
  {
    var k := 0;
    while k < |cues|
      invariant 0 <= k <= |cues|
      invariant forall j :: 0 <= j < k ==> !Covers(cues[j], t)
    {
      if t >= cues[k].start && t <= cues[k].end {
        return cues[k].text;
      }
      k := k + 1;
    }
    return "";
  }

  /** The loop and the reference definition agree on every list and time. */
  lemma UpdateMatchesActiveText(cues: seq<Cue>, t: real, text: string)
    requires (forall j :: 0 <= j < |cues| ==> !Covers(cues[j], t)) ==> text == ""
    requires forall i :: 0 <= i < |cues| && Covers(cues[i], t) ==>
                           (forall j :: 0 <= j < i ==> !Covers(cues[j], t)) ==> text == cues[i].text
    ensures text == ActiveText(cues, t)
  {
    var r := FirstIndex(cues, (c: Cue) => Covers(c, t));
    if r.Some? {
      assert Covers(cues[r.value], t);
    }
  }

  /** When two listed cues both contain `t` (for instance at a boundary shared
      by adjacent cues), the later one is never the one shown unless the
      earlier has the same text. */
  lemma EarlierCueWins(cues: seq<Cue>, t: real, i: nat, j: nat)
    requires i < j < |cues|
    requires Covers(cues[i], t) && Covers(cues[j], t)
    ensures exists k :: 0 <= k <= i && Covers(cues[k], t) && ActiveText(cues, t) == cues[k].text
  {
    var r := FirstIndex(cues, (c: Cue) => Covers(c, t));
    assert r.Some?;
    assert r.value <= i;
  }

  /** No instant lies in two different cues. */
  predicate Disjoint(cues: seq<Cue>)
  {
    forall i, j :: 0 <= i < j < |cues| ==> cues[i].end < cues[j].start || cues[j].end < cues[i].start
  }

  /** For disjoint cues the lookup returns the unique cue containing `t`,
      whatever the order of the list. */
  lemma {:induction false} DisjointLookup(cues: seq<Cue>, t: real, k: nat)
    requires Disjoint(cues)
    requires k < |cues| && Covers(cues[k], t)
    ensures ActiveText(cues, t) == cues[k].text
  {
    var r := FirstIndex(cues, (c: Cue) => Covers(c, t));
    assert r.Some?;
    if r.value < k {
      assert false;
    }
  }

  /** A time outside every cue clears the subtitle. */
  lemma UncoveredIsEmpty(cues: seq<Cue>, t: real)
    requires forall j :: 0 <= j < |cues| ==> t < cues[j].start || cues[j].end < t
    ensures ActiveText(cues, t) == ""
  {
    var r := FirstIndex(cues, (c: Cue) => Covers(c, t));
    if r.Some? {
      assert false;
    }
  }

  /** The two-cue example: 3 is in the first, 7 in the second, 12 in neither,
      and the shared boundary 5 goes to the first. */
  lemma TwoCueExample()
    ensures ActiveText([Cue(0.0, 5.0, "A"), Cue(5.0, 10.0, "B")], 3.0) == "A"
    ensures ActiveText([Cue(0.0, 5.0, "A"), Cue(5.0, 10.0, "B")], 5.0) == "A"
    ensures ActiveText([Cue(0.0, 5.0, "A"), Cue(5.0, 10.0, "B")], 7.0) == "B"
    ensures ActiveText([Cue(0.0, 5.0, "A"), Cue(5.0, 10.0, "B")], 12.0) == ""
  {
    var cues := [Cue(0.0, 5.0, "A"), Cue(5.0, 10.0, "B")];
    UncoveredIsEmpty(cues, 12.0);
    var r7 := FirstIndex(cues, (c: Cue) => Covers(c, 7.0));
    assert !Covers(cues[0], 7.0) && Covers(cues[1], 7.0);
    assert r7 == Some(1);
  }
}

=== FILE: korean_text.dfy ===
/** Hangul recognition: `containsKorean` in src/components/SubtitleDisplay.tsx
    and `processKoreanText` in src/utils/youtubeUtils.ts. JavaScript regular
    expressions without the `u` flag test UTF-16 code units; here a string is
    a sequence of Unicode scalar values. The two agree on these tests, since
    every range lies inside the Basic Multilingual Plane and below the
    surrogate block, so no half of a surrogate pair can fall in one. */
module KoreanText {

  /** The code units `containsKorean` looks for: Hangul syllables
      (U+AC00 to U+D7AF), Jamo (U+1100 to U+11FF), compatibility Jamo
      (U+3130 to U+318F), Jamo extended-A (U+A960 to U+A97F) and extended-B
      (U+D7B0 to U+D7FF). */
  predicate IsKoreanUnit(c: char)
  {
    var n := c as int;
    (0xAC00 <= n <= 0xD7AF) || (0x1100 <= n <= 0x11FF) || (0x3130 <= n <= 0x318F)
    || (0xA960 <= n <= 0xA97F) || (0xD7B0 <= n <= 0xD7FF)
  }

  /** `koreanRegex.test(text)`: a scan for the first Korean code unit. */
  function ContainsKorean(text: string): (r: bool)
    ensures r <==> exists i :: 0 <= i < |text| && IsKoreanUnit(text[i])
    decreases |text|
  {
    if |text| == 0 then false
    else if IsKoreanUnit(text[0]) then true
    else
      var rest := ContainsKorean(text[1..]);
      assert forall i :: 1 <= i < |text| ==> text[i] == text[1..][i - 1];
      rest
  }

  /** The narrower class `processKoreanText` matches: syllables, Jamo and
      compatibility Jamo only. */
  predicate IsProcessedUnit(c: char)
  {
    var n := c as int;
    (0xAC00 <= n <= 0xD7AF) || (0x1100 <= n <= 0x11FF) || (0x3130 <= n <= 0x318F)
  }

  /** Everything `processKoreanText` matches is also detected as Korean. */
  lemma ProcessedUnitsAreKorean(c: char)
    ensures IsProcessedUnit(c) ==> IsKoreanUnit(c)
  {
  }

  /** The length of the run of processed units at the start of `s`. */
  function RunLength(s: string): (n: nat)
    ensures n <= |s|
    ensures forall k :: 0 <= k < n ==> IsProcessedUnit(s[k])
    ensures n < |s| ==> !IsProcessedUnit(s[n])
    decreases |s|
  {
    if |s| > 0 && IsProcessedUnit(s[0]) then
      var m := RunLength(s[1..]);
      assert forall k :: 1 <= k < m + 1 ==> s[k] == s[1..][k - 1];
      m + 1
    else 0
  }

  /** `text.replace(/[...]+/g, replace)`: every maximal run of processed units
      is handed to `replace`, left to right, and the rest is copied. */
  function ReplaceRuns(text: string, replace: string -> string): string
    decreases |text|
  {
    if |text| == 0 then ""
    else if IsProcessedUnit(text[0]) then
      var n := RunLength(text);
      replace(text[..n]) + ReplaceRuns(text[n..], replace)
    else [text[0]] + ReplaceRuns(text[1..], replace)
  }

  /** `processKoreanText`: each match is replaced by itself, so the text comes
      back unchanged. */
  function ProcessKoreanText(text: string): (r: string)
    ensures r == text
  {
    ReplaceRunsIdentity(text, (m: string) => m);
    ReplaceRuns(text, (m: string) => m)
  }

  /** A replacement that returns its match leaves the text unchanged. */
  lemma {:induction false} ReplaceRunsIdentity(text: string, replace: string -> string)
    requires forall m :: replace(m) == m
    ensures ReplaceRuns(text, replace) == text
    decreases |text|
  {
    if |text| > 0 {
      if IsProcessedUnit(text[0]) {
        var n := RunLength(text);
        ReplaceRunsIdentity(text[n..], replace);
        assert text[..n] + text[n..] == text;
      } else {
        ReplaceRunsIdentity(text[1..], replace);
        assert [text[0]] + text[1..] == text;
      }
    }
  }
}

=== FILE: options.dfy ===
/** The optional value that the TypeScript source writes as `T | null` or an
    absent (`undefined`) field. */
module Options {

  datatype Option<+T> = None | Some(value: T) {

    /** The wrapped value, or `default` when there is none. */
    function GetOr(default: T): T
    {
      match this
      case Some(v) => v
      case None => default
    }
  }
}

=== FILE: player.dfy ===
/** The control state of the video player (`VideoPlayer` in
    src/components/VideoPlayer.tsx) and the handlers that change it. Each
    handler is a pure step from one session to the next, together with the
    command it sends to the media backend and the error it reports, if any.
    The backend itself (the YouTube iframe player or the HTML video element)
    is outside the model: what it returns is a parameter. */
module Player {
  import opened Options
  import opened Cues
  import PlaybackRate

  /** Which backend plays the current URL. */
  datatype BackendKind = YouTube | NativeVideo

  /** The component's state. `hasPlayer` says whether the backend handle
      (`youtubePlayerRef.current` or `videoRef.current`) exists. */
  datatype Session = Session(
    kind: BackendKind,
    hasPlayer: bool,
    isPlaying: bool,
    playbackRate: real,
    isFullscreen: bool,
    isSubtitleVisible: bool,
    currentSubtitle: string,
    youtubeError: Option<string>,
    cues: seq<Cue>)

  /** The state right after mounting. */
  function NewSession(kind: BackendKind, hasPlayer: bool, cues: seq<Cue>): Session
  {
    Session(kind, hasPlayer, false, PlaybackRate.InitialRate, false, true, "", None, cues)
  }

  /** A fresh player is paused at normal speed, windowed, with captions on but
      no overlay until a tick finds a cue, and no error; its rate is listed,
      so the rate button cycles through all six entries from it. */
  lemma NewSessionState(kind: BackendKind, hasPlayer: bool, cues: seq<Cue>)
    ensures var s := NewSession(kind, hasPlayer, cues);
            !s.isPlaying && s.playbackRate == 1.0 && !s.isFullscreen && s.youtubeError == None &&
            s.isSubtitleVisible && ShownSubtitle(s) == None
    ensures NewSession(kind, hasPlayer, cues).playbackRate in PlaybackRate.Rates
  {
  }

  /** A call the handlers make on the backend (or on the document, for
      fullscreen). */
  datatype Command = Play | Pause | SeekTo(target: real) | SetRate(rate: real)
                   | RequestFullscreen | ExitFullscreen

  /** A handler's effect: the next session, the backend call it made, and the
      message it reported to the user. */
  datatype Step = Step(session: Session, command: Option<Command>, report: Option<string>)

  // ---------------------------------------------------------------------------
  // Embed errors

  /** The groups the YouTube player's numeric error codes fall into. */
  datatype ErrorCategory = InvalidParameter | NotPlayableHere | NotFound | EmbedRefused | Unknown

  function Categorize(code: int): ErrorCategory
  {
    if code == 2 then InvalidParameter
    else if code == 5 then NotPlayableHere
    else if code == 100 then NotFound
    else if code == 101 || code == 150 then EmbedRefused
    else Unknown
  }

  function Describe(c: ErrorCategory): string
  {
    match c
    case InvalidParameter => "Invalid video parameters"
    case NotPlayableHere => "This video cannot be played in this player"
    case NotFound => "Video not found"
    case EmbedRefused => "This video cannot be embedded"
    case Unknown => "An unknown error occurred"
  }

  /** The user-facing message for a YouTube error code. */
  function ErrorMessage(code: int): (m: string)
    ensures code == 2 ==> m == "Invalid video parameters"
    ensures code == 5 ==> m == "This video cannot be played in this player"
    ensures code == 100 ==> m == "Video not found"
    ensures code == 101 || code == 150 ==> m == "This video cannot be embedded"
    ensures code !in {2, 5, 100, 101, 150} ==> m == "An unknown error occurred"
  {
    Describe(Categorize(code))
  }

  /** Different categories get different messages, so the message tells the
      category: two codes share a message exactly when they share a category. */
  lemma ErrorMessageIdentifiesCategory(a: int, b: int)
    ensures ErrorMessage(a) == ErrorMessage(b) <==> Categorize(a) == Categorize(b)
  {
  }

  /** The embed-refusal message is shown for exactly the codes 101 and 150. */
  lemma EmbedRefusedIff(code: int)
    ensures ErrorMessage(code) == "This video cannot be embedded" <==> code == 101 || code == 150
  {
    ErrorMessageIdentifiesCategory(code, 101);
  }

  /** `onYoutubeError`: records the message, which replaces the player, and
      reports the same message; no backend call is made and nothing else
      changes. */
  function OnYoutubeError(s: Session, code: int): (r: Step)
    ensures r.session.youtubeError == Some(ErrorMessage(code))
    ensures r.session.(youtubeError := s.youtubeError) == s
    ensures r.command == None
    ensures r.report == Some(ErrorMessage(code))
  {
    Step(s.(youtubeError := Some(ErrorMessage(code))), None, Some(ErrorMessage(code)))
  }

  // ---------------------------------------------------------------------------
  // Play state

  /** `onYoutubeStateChange`: state 1 (playing) and 2 (paused) set the flag;
      every other state (ended, buffering, cued, unstarted) leaves it alone. */
  function OnStateChange(s: Session, state: int): (r: Session)
    ensures state == 1 ==> r.isPlaying
    ensures state == 2 ==> !r.isPlaying
    ensures state != 1 && state != 2 ==> r == s
    ensures r.(isPlaying := s.isPlaying) == s
  {
    if state == 1 then s.(isPlaying := true)
    else if state == 2 then s.(isPlaying := false)
    else s
  }

  /** A repeated notification changes nothing more. */
  lemma OnStateChangeIdempotent(s: Session, state: int)
    ensures OnStateChange(OnStateChange(s, state), state) == OnStateChange(s, state)
  {
  }

  /** After a notification the flag says whether the last playing-or-paused
      notification was "playing". */
  lemma {:induction false} StateChangesFollowLastPlayPause(s: Session, states: seq<int>)
    ensures FoldStateChanges(s, states).isPlaying == LastPlayPause(s.isPlaying, states)
    ensures FoldStateChanges(s, states).(isPlaying := s.isPlaying) == s
    decreases |states|
  {
    if |states| > 0 {
      StateChangesFollowLastPlayPause(s, states[..|states| - 1]);
    }
  }

  /** A run of notifications, oldest first. */
  function FoldStateChanges(s: Session, states: seq<int>): Session
    decreases |states|
  {
    if |states| == 0 then s
    else OnStateChange(FoldStateChanges(s, states[..|states| - 1]), states[|states| - 1])
  }

  /** Reference reading of a run of notifications: the value of the last 1 or 2
      in it, or `initial` when there is none. */
  function LastPlayPause(initial: bool, states: seq<int>): bool
    decreases |states|
  {
    if |states| == 0 then initial
    else
      var last := states[|states| - 1];
      if last == 1 then true
      else if last == 2 then false
      else LastPlayPause(initial, states[..|states| - 1])
  }

  /** `togglePlay`: asks the backend to pause when playing and to play
      otherwise. It never sets `isPlaying` itself; the flag changes only when
      the backend's notification arrives. `failure` is the message of the
      backend call's exception (YouTube) or rejected promise (native `play()`),
      `None` when the call succeeded. */
  function TogglePlay(s: Session, failure: Option<string>): (r: Step)
    ensures r.session == s
    ensures r.command.Some? <==> s.hasPlayer
    ensures r.command.Some? ==> r.command.value == (if s.isPlaying then Pause else Play)
    ensures r.report.Some? ==> s.hasPlayer && failure.Some?
    ensures s.hasPlayer && failure.Some? && (s.kind == YouTube || !s.isPlaying) ==> r.report.Some?
    ensures r.report.Some? ==>
              r.report.value == (if s.kind == YouTube then "Could not control YouTube playback."
                                 else "Could not play the video. " + failure.value)
  {
    if !s.hasPlayer then Step(s, None, None)
    else
      match s.kind
      case YouTube =>
        Step(s, Some(if s.isPlaying then Pause else Play),
             if failure.Some? then Some("Could not control YouTube playback.") else None)
      case NativeVideo =>
        if s.isPlaying then Step(s, Some(Pause), None)
        else Step(s, Some(Play),
                  if failure.Some? then Some("Could not play the video. " + failure.value) else None)
  }

  /** A YouTube player that throws on pause keeps `isPlaying` and reports one
      playback error. */
  lemma ThrowingPauseKeepsState(s: Session, message: string)
    requires s.kind == YouTube && s.hasPlayer && s.isPlaying
    ensures TogglePlay(s, Some(message)).session.isPlaying
    ensures TogglePlay(s, Some(message)).report == Some("Could not control YouTube playback.")
  {
  }

  /** Toggling and then receiving the backend's notification flips the flag:
      play/pause control round-trips through the backend. */
  lemma ToggleThenNotifyFlips(s: Session)
    requires s.hasPlayer
    ensures var c := TogglePlay(s, None).command.value;
            OnStateChange(TogglePlay(s, None).session, if c == Play then 1 else 2).isPlaying == !s.isPlaying
  {
  }

  // ---------------------------------------------------------------------------
  // Seeking

  /** The target of a relative seek. No clamping: the backend receives the
      sum even when it lies before the start or past the end. */
  function SeekTarget(current: real, delta: real): (t: real)
    ensures t - current == delta
  {
    current + delta
  }

  /** `seekVideo(amount)`: reads the backend's current time and seeks relative
      to it. `reading` is `None` when the YouTube player's `getCurrentTime` is
      not a function yet (the API has not attached it) or when it threw, which
      is logged and ignored. The session is untouched; the displayed time follows
      the backend's next progress report. */
  function SeekBy(s: Session, reading: Option<real>, amount: real): (r: Step)
    ensures r.session == s && r.report == None
    ensures r.command.Some? <==> s.hasPlayer && reading.Some?
    ensures r.command.Some? ==> r.command.value == SeekTo(SeekTarget(reading.value, amount))
  {
    if s.hasPlayer && reading.Some? then Step(s, Some(SeekTo(SeekTarget(reading.value, amount))), None)
    else Step(s, None, None)
  }

  /** The skip buttons undo each other, and a back skip near the start asks for
      a negative time. */
  lemma SkipButtons(t: real)
    ensures SeekTarget(SeekTarget(t, 10.0), -10.0) == t
    ensures 0.0 <= t < 10.0 ==> SeekTarget(t, -10.0) < 0.0
  {
  }

  /** Where along the progress bar a click landed, as a fraction of its width. */
  function ClickFraction(clientX: real, left: real, width: real): (f: real)
    requires width > 0.0
    ensures left <= clientX <= left + width ==> 0.0 <= f <= 1.0
    ensures f * width == clientX - left
  {
    (clientX - left) / width
  }

  /** The absolute target of a progress-bar click: the fraction of the
      duration. */
  function ProgressTarget(duration: real, fraction: real): (t: real)
    requires duration >= 0.0
    ensures 0.0 <= fraction <= 1.0 ==> 0.0 <= t <= duration
    ensures fraction == 0.0 ==> t == 0.0
    ensures fraction == 1.0 ==> t == duration
    ensures duration > 0.0 ==> t / duration == fraction
    ensures duration == 0.0 ==> t == 0.0
  {
    ScaledFacts(duration, fraction);
    duration * fraction
  }

  /** What scaling a non-negative length by a fraction gives: a point within
      the length for a fraction in [0, 1], and a product that divides back to
      the fraction. */
  lemma ScaledFacts(d: real, f: real)
    requires d >= 0.0
    ensures 0.0 <= f <= 1.0 ==> 0.0 <= d * f <= d
    ensures d > 0.0 ==> (d * f) / d == f
    ensures d == 0.0 ==> d * f == 0.0
  {
    if 0.0 <= f <= 1.0 {
      assert d * (1.0 - f) >= 0.0;
    }
  }

  /** A further click seeks further. */
  lemma ProgressTargetMonotone(duration: real, f1: real, f2: real)
    requires duration >= 0.0 && f1 <= f2
    ensures ProgressTarget(duration, f1) <= ProgressTarget(duration, f2)
  {
    assert duration * (f2 - f1) >= 0.0;
  }

  /** A click lands as far into the video as it lands along the bar: the
      target times the bar's width is the duration times the click offset. */
  lemma ClickSeeksProportionally(duration: real, clientX: real, left: real, width: real)
    requires duration >= 0.0 && width > 0.0
    ensures ProgressTarget(duration, ClickFraction(clientX, left, width)) * width == duration * (clientX - left)
  {
    var f := ClickFraction(clientX, left, width);
    assert ProgressTarget(duration, f) * width == duration * (f * width);
  }

  /** `handleProgressClick`: `duration` is `None` when the YouTube player's
      `getDuration` is not a function yet or threw. */
  function ProgressClick(s: Session, duration: Option<real>, fraction: real): (r: Step)
    requires duration.Some? ==> duration.value >= 0.0
    ensures r.session == s && r.report == None
    ensures r.command.Some? <==> s.hasPlayer && duration.Some?
    ensures r.command.Some? ==> r.command.value == SeekTo(ProgressTarget(duration.value, fraction))
    ensures r.command.Some? && 0.0 <= fraction <= 1.0 ==>
              r.command.value.SeekTo? && 0.0 <= r.command.value.target <= duration.value
  {
    if s.hasPlayer && duration.Some? then Step(s, Some(SeekTo(ProgressTarget(duration.value, fraction))), None)
    else Step(s, None, None)
  }

  // ---------------------------------------------------------------------------
  // Rate, fullscreen, captions

  /** `changePlaybackRate`: the state moves to the next rate even when the
      backend cannot be told. The backend is told the same rate when it exists
      and, for YouTube, when `setPlaybackRate` is already a function
      (`rateSettable`); a throwing call is logged and ignored. */
  function ChangePlaybackRate(s: Session, rateSettable: bool): (r: Step)
    ensures r.session.playbackRate == PlaybackRate.NextRate(s.playbackRate)
    ensures r.session.playbackRate in PlaybackRate.Rates
    ensures r.session.(playbackRate := s.playbackRate) == s
    ensures r.command.Some? <==> s.hasPlayer && (s.kind == NativeVideo || rateSettable)
    ensures r.command.Some? ==> r.command.value == SetRate(r.session.playbackRate)
    ensures r.report == None
  {
    PlaybackRate.NextRateListed(s.playbackRate);
    var rate := PlaybackRate.NextRate(s.playbackRate);
    var told := s.hasPlayer && (s.kind == NativeVideo || rateSettable);
    Step(s.(playbackRate := rate), if told then Some(SetRate(rate)) else None, None)
  }

  /** Six presses of the rate button bring a session with a listed rate back
      to where it started. */
  lemma SixRateChangesReturn(s: Session, settable: bool)
    requires s.playbackRate in PlaybackRate.Rates
    ensures var c := (x: Session) => ChangePlaybackRate(x, settable).session;
            c(c(c(c(c(c(s)))))) == s
  {
    PlaybackRate.SixPressesReturn(s.playbackRate);
    var p := PlaybackRate.NextRate;
    assert PlaybackRate.Presses(s.playbackRate, 6) == p(p(p(p(p(p(s.playbackRate))))));
  }

  /** `toggleFullscreen`: without a container element nothing happens;
      otherwise the matching request goes out and the flag flips at once,
      without waiting for the browser to confirm. */
  function ToggleFullscreen(s: Session, hasContainer: bool): (r: Step)
    ensures !hasContainer ==> r == Step(s, None, None)
    ensures hasContainer ==> r.session.isFullscreen == !s.isFullscreen
    ensures hasContainer ==> r.command == Some(if s.isFullscreen then ExitFullscreen else RequestFullscreen)
    ensures r.session.(isFullscreen := s.isFullscreen) == s
  {
    if !hasContainer then Step(s, None, None)
    else Step(s.(isFullscreen := !s.isFullscreen),
              Some(if s.isFullscreen then ExitFullscreen else RequestFullscreen), None)
  }

  /** Two presses restore the session, and the second request undoes the
      first. */
  lemma FullscreenTwiceRestores(s: Session)
    ensures ToggleFullscreen(ToggleFullscreen(s, true).session, true).session == s
    ensures ToggleFullscreen(s, true).command != ToggleFullscreen(ToggleFullscreen(s, true).session, true).command
  {
  }

  /** `handleSubtitleToggle`: flips caption visibility only. */
  function ToggleSubtitles(s: Session): (r: Session)
    ensures r.isSubtitleVisible == !s.isSubtitleVisible
    ensures r.(isSubtitleVisible := s.isSubtitleVisible) == s
  {
    s.(isSubtitleVisible := !s.isSubtitleVisible)
  }

  lemma SubtitlesTwiceRestores(s: Session)
    ensures ToggleSubtitles(ToggleSubtitles(s)) == s
  {
  }

  // ---------------------------------------------------------------------------
  // Subtitle polling and display

  /** One tick of the 500 ms subtitle tracker: with a player whose current
      time could be read, the subtitle becomes the cue lookup at that time;
      otherwise (no player, `getCurrentTime` not a function yet, or the
      accessor threw) nothing changes. */
  function PollTick(s: Session, reading: Option<real>): (r: Session)
    ensures s.hasPlayer && reading.Some? ==> r.currentSubtitle == ActiveText(s.cues, reading.value)
    ensures !(s.hasPlayer && reading.Some?) ==> r == s
    ensures r.(currentSubtitle := s.currentSubtitle) == s
  {
    if s.hasPlayer && reading.Some? then s.(currentSubtitle := ActiveText(s.cues, reading.value)) else s
  }

  /** Each tick re-reads the backend, so only the latest reading matters. */
  lemma LatestTickWins(s: Session, t1: real, t2: real)
    requires s.hasPlayer
    ensures PollTick(PollTick(s, Some(t1)), Some(t2)) == PollTick(s, Some(t2))
  {
  }

  /** The overlay is rendered when captions are visible and the current
      subtitle is non-empty. */
  function ShownSubtitle(s: Session): (r: Option<string>)
    ensures r.Some? <==> s.isSubtitleVisible && s.currentSubtitle != ""
    ensures r.Some? ==> r.value == s.currentSubtitle
  {
    if s.isSubtitleVisible && s.currentSubtitle != "" then Some(s.currentSubtitle) else None
  }

  /** A tick at a time no cue covers removes the overlay; hiding captions
      removes it whatever the tick found. */
  lemma OverlayFollowsTicks(s: Session, t: real)
    requires s.hasPlayer
    ensures (forall j :: 0 <= j < |s.cues| ==> !Covers(s.cues[j], t)) ==> ShownSubtitle(PollTick(s, Some(t))) == None
    ensures ShownSubtitle(ToggleSubtitles(PollTick(s.(isSubtitleVisible := true), Some(t)))) == None
  {
    if forall j :: 0 <= j < |s.cues| ==> !Covers(s.cues[j], t) {
      UncoveredIsEmpty(s.cues, t);
    }
  }
}

=== FILE: rate.dfy ===
/** The playback-rate button (`changePlaybackRate` in
    src/components/VideoPlayer.tsx): each press moves to the next entry of a
    fixed list, wrapping from the last back to the first. */
module PlaybackRate {
  import opened Seqs

  /** The selectable rates, in button order. */
  const Rates: seq<real> := [0.5, 0.75, 1.0, 1.25, 1.5, 2.0]

  /** The rate a fresh player starts with. */
  const InitialRate: real := 1.0

  /** `rate` is the entry at position `i` of the list. */
  predicate ListedAt(i: int, rate: real)
  {
    0 <= i < |Rates| && Rates[i] == rate
  }

  /** The position of `rate` in the list, -1 when it is not listed. */
  function RateIndex(rate: real): (k: int)
    ensures -1 <= k < |Rates|
    ensures forall i :: ListedAt(i, rate) ==> k == i
    ensures k == -1 <==> rate !in Rates
  {
    if rate == 0.5 then 0 else if rate == 0.75 then 1 else if rate == 1.0 then 2
    else if rate == 1.25 then 3 else if rate == 1.5 then 4 else if rate == 2.0 then 5
    else -1
  }

  /** The position is exactly what `rates.indexOf(rate)` computes. */
  lemma RateIndexIsIndexOf(rate: real)
    ensures RateIndex(rate) == IndexOf(Rates, rate)
  {
    var r := IndexOf(Rates, rate);
    if r >= 0 {
      assert ListedAt(r, rate);
    }
  }

  /** One press: `rates[(rates.indexOf(rate) + 1) % rates.length]`. A rate that
      is not listed has index -1, so the press selects the first entry. */
  function NextRate(rate: real): (r: real)
    ensures rate !in Rates ==> r == Rates[0]
    ensures forall i :: ListedAt(i, rate) ==> r == Rates[(i + 1) % |Rates|]
  {
    Rates[(RateIndex(rate) + 1) % |Rates|]
  }

  /** Every press selects a listed rate. */
  lemma NextRateListed(rate: real)
    ensures NextRate(rate) in Rates
  {
  }

  /** The six transitions of the button, in order. */
  lemma NextRateTable()
    ensures NextRate(0.5) == 0.75
    ensures NextRate(0.75) == 1.0
    ensures NextRate(1.0) == 1.25
    ensures NextRate(1.25) == 1.5
    ensures NextRate(1.5) == 2.0
    ensures NextRate(2.0) == 0.5
  {
    assert ListedAt(0, 0.5);
    assert ListedAt(1, 0.75);
    assert ListedAt(2, 1.0);
    assert ListedAt(3, 1.25);
    assert ListedAt(4, 1.5);
    assert ListedAt(5, 2.0);
  }

  /** `f` moves every listed rate one place round the list. */
  ghost predicate AdvancesOnePlace(f: real -> real)
  {
    forall i, rate :: ListedAt(i, rate) ==> f(rate) == Rates[(i + 1) % |Rates|]
  }

  /** `n` applications of `f` in a row. */
  function Iterate(f: real -> real, rate: real, n: nat): real
  {
    if n == 0 then rate else f(Iterate(f, rate, n - 1))
  }

  /** `n` presses of the button in a row. */
  function Presses(rate: real, n: nat): real
  {
    Iterate(NextRate, rate, n)
  }

  lemma ModSucc(a: nat)
    ensures (a % 6 + 1) % 6 == (a + 1) % 6
  {
    var q := a / 6;
    assert a == 6 * q + a % 6;
    if a % 6 == 5 {
      assert a + 1 == 6 * (q + 1);
    } else {
      assert a + 1 == 6 * q + (a % 6 + 1);
    }
  }

  /** Any step that advances one place, applied `n` times from a listed rate,
      lands `n` places further round the list. */
  lemma {:induction false} IterateAdvances(f: real -> real, i: nat, n: nat)
    requires AdvancesOnePlace(f)
    requires i < |Rates|
    ensures Iterate(f, Rates[i], n) == Rates[(i + n) % |Rates|]
  {
    if n > 0 {
      IterateAdvances(f, i, n - 1);
      var k := (i + n - 1) % |Rates|;
      var prev := Iterate(f, Rates[i], n - 1);
      assert ListedAt(k, prev);
      assert Iterate(f, Rates[i], n) == f(prev) == Rates[(k + 1) % |Rates|];
      ModSucc(i + n - 1);
    }
  }

  /** The button's step is such a step. */
  lemma NextRateAdvances()
    ensures AdvancesOnePlace(NextRate)
  {
  }

  /** Six applications of a one-place step return every listed rate to itself. */
  lemma IterateSixReturns(f: real -> real, rate: real)
    requires AdvancesOnePlace(f)
    requires rate in Rates
    ensures Iterate(f, rate, 6) == rate
  {
    var i := RateIndex(rate);
    assert ListedAt(i, rate);
    IterateAdvances(f, i, 6);
  }

  /** Between one and five applications of a one-place step never return a
      listed rate to itself. */
  lemma IterateNoEarlyReturn(f: real -> real, rate: real, n: nat)
    requires AdvancesOnePlace(f)
    requires rate in Rates
    requires 0 < n < 6
    ensures Iterate(f, rate, n) != rate
  {
    var i := RateIndex(rate);
    assert ListedAt(i, rate);
    IterateAdvances(f, i, n);
    var j := (i + n) % |Rates|;
    assert ListedAt(j, Rates[j]);
  }

  /** From a listed rate, `n` presses land `n` places further round the list. */
  lemma PressesAdvance(i: nat, n: nat)
    requires i < |Rates|
    ensures Presses(Rates[i], n) == Rates[(i + n) % |Rates|]
  {
    NextRateAdvances();
    IterateAdvances(NextRate, i, n);
  }

  /** Six presses from any listed rate return to it. */
  lemma SixPressesReturn(rate: real)
    requires rate in Rates
    ensures Presses(rate, 6) == rate
  {
    NextRateAdvances();
    IterateSixReturns(NextRate, rate);
  }

  /** Fewer than six presses never return to the starting rate: the cycle has
      length exactly six and its entries are distinct. */
  lemma CycleIsMinimal(rate: real, n: nat)
    requires rate in Rates
    requires 0 < n < 6
    ensures Presses(rate, n) != rate
  {
    NextRateAdvances();
    IterateNoEarlyReturn(NextRate, rate, n);
  }

  /** Applying `f` once and then `n` times is applying it `n + 1` times. */
  lemma {:induction false} IterateShift(f: real -> real, rate: real, n: nat)
    ensures Iterate(f, f(rate), n) == Iterate(f, rate, n + 1)
  {
    if n > 0 {
      IterateShift(f, rate, n - 1);
    }
  }

  /** An unlisted rate joins the cycle at its first entry, after which the
      cycle repeats every six presses. */
  lemma UnlistedJoinsCycle(rate: real, n: nat)
    requires rate !in Rates
    ensures Presses(rate, n + 1) == Rates[n % |Rates|]
  {
    NextRateAdvances();
    IterateFromFirst(NextRate, rate, n);
  }

  /** A one-place step that sends `rate` to the first entry then walks the
      cycle from there. */
  lemma IterateFromFirst(f: real -> real, rate: real, n: nat)
    requires AdvancesOnePlace(f)
    requires f(rate) == Rates[0]
    ensures Iterate(f, rate, n + 1) == Rates[n % |Rates|]
  {
    IterateShift(f, rate, n);
    IterateAdvances(f, 0, n);
  }
}

=== FILE: segmentation.dfy ===
/** Word segmentation of a subtitle (`segmentKoreanText` in
    src/components/SubtitleDisplay.tsx): `text.split(/\s+/)` followed by
    dropping empty strings. The split is written out as the ECMAScript
    algorithm runs it, scanning for maximal runs of whitespace. */
module Segmentation {

  /** The characters `\s` matches: ECMAScript WhiteSpace (tab, vertical tab,
      form feed, the zero-width no-break space U+FEFF, and the space separators U+0020,
      U+00A0, U+1680, U+2000 to U+200A, U+202F, U+205F, U+3000) and
      LineTerminator (U+000A, U+000D, U+2028, U+2029). */
  predicate IsWhitespace(c: char)
  {
    var n := c as int;
    (0x09 <= n <= 0x0D) || n == 0x20 || n == 0xA0 || n == 0x1680 || (0x2000 <= n <= 0x200A)
    || n == 0x2028 || n == 0x2029 || n == 0x202F || n == 0x205F || n == 0x3000 || n == 0xFEFF
  }

  predicate NoWhitespace(s: string)
  {
    forall i :: 0 <= i < |s| ==> !IsWhitespace(s[i])
  }

  /** `s` with every whitespace character removed. */
  function RemoveWhitespace(s: string): string
  {
    if |s| == 0 then "" else (if IsWhitespace(s[0]) then "" else [s[0]]) + RemoveWhitespace(s[1..])
  }

  /** The pieces laid end to end. */
  function Concat(pieces: seq<string>): string
  {
    if |pieces| == 0 then "" else pieces[0] + Concat(pieces[1..])
  }

  /** The end of the whitespace run starting at `q`. */
  function RunEnd(s: string, q: nat): (e: nat)
    requires q <= |s|
    ensures q <= e <= |s|
    ensures forall k :: q <= k < e ==> IsWhitespace(s[k])
    ensures e < |s| ==> !IsWhitespace(s[e])
    decreases |s| - q
  {
    if q < |s| && IsWhitespace(s[q]) then RunEnd(s, q + 1) else q
  }

  /** The split loop: `p` is where the current piece began, `q` the position
      being tried. A match of `\s+` at `q` closes the piece `s[p..q]` and
      restarts after the run; at the end the rest `s[p..]` is the last piece. */
  function SplitFrom(s: string, p: nat, q: nat): seq<string>
    requires p <= q <= |s|
    decreases |s| - q
  {
    if q == |s| then [s[p..]]
    else if IsWhitespace(s[q]) then
      var e := RunEnd(s, q);
      [s[p..q]] + SplitFrom(s, e, e)
    else SplitFrom(s, p, q + 1)
  }

  /** `s.split(/\s+/)`: no piece holds whitespace, and the pieces laid end to
      end are the text with its whitespace removed. */
  function Split(s: string): (pieces: seq<string>)
    ensures forall i :: 0 <= i < |pieces| ==> NoWhitespace(pieces[i])
    ensures Concat(pieces) == RemoveWhitespace(s)
  {
    assert s[0..0] == "" && s[0..] == s;
    SplitFromPieces(s, 0, 0);
    SplitFrom(s, 0, 0)
  }

  /** `pieces.filter(word => word.length > 0)`. */
  function DropEmpty(pieces: seq<string>): seq<string>
  {
    if |pieces| == 0 then []
    else (if |pieces[0]| > 0 then [pieces[0]] else []) + DropEmpty(pieces[1..])
  }

  /** `segmentKoreanText`: no token is empty, no token holds whitespace, and
      the tokens laid end to end are the text with its whitespace removed. */
  function Segment(text: string): (words: seq<string>)
    ensures forall i :: 0 <= i < |words| ==> |words[i]| > 0
    ensures forall i :: 0 <= i < |words| ==> NoWhitespace(words[i])
    ensures Concat(words) == RemoveWhitespace(text)
  {
    DropEmptyConcat(Split(text));
    DropEmptyFromPieces(Split(text));
    DropEmptyNonEmpty(Split(text));
    DropEmpty(Split(text))
  }

  // ---------------------------------------------------------------------------
  // Facts about removing whitespace

  lemma {:induction false} RemoveWhitespaceAppend(a: string, b: string)
    ensures RemoveWhitespace(a + b) == RemoveWhitespace(a) + RemoveWhitespace(b)
    decreases |a|
  {
    if |a| > 0 {
      RemoveWhitespaceAppend(a[1..], b);
      assert (a + b)[1..] == a[1..] + b;
    } else {
      assert a + b == b;
    }
  }

  lemma {:induction false} RemoveWhitespaceOfRun(s: string)
    requires forall i :: 0 <= i < |s| ==> IsWhitespace(s[i])
    ensures RemoveWhitespace(s) == ""
    decreases |s|
  {
    if |s| > 0 {
      RemoveWhitespaceOfRun(s[1..]);
    }
  }

  lemma {:induction false} RemoveWhitespaceOfWord(s: string)
    requires NoWhitespace(s)
    ensures RemoveWhitespace(s) == s
    decreases |s|
  {
    if |s| > 0 {
      RemoveWhitespaceOfWord(s[1..]);
    }
  }

  // ---------------------------------------------------------------------------
  // Facts about the split

  /** Every piece of the split is free of whitespace, and the pieces laid end to
      end are the scanned text with its whitespace removed. */
  lemma SplitFromPieces(s: string, p: nat, q: nat)
    requires p <= q <= |s|
    requires NoWhitespace(s[p..q])
    ensures forall i :: 0 <= i < |SplitFrom(s, p, q)| ==> NoWhitespace(SplitFrom(s, p, q)[i])
    ensures Concat(SplitFrom(s, p, q)) == s[p..q] + RemoveWhitespace(s[q..])
  {
    SplitFromClean(s, p, q);
    SplitFromConcat(s, p, q);
  }

  lemma {:induction false} SplitFromClean(s: string, p: nat, q: nat)
    requires p <= q <= |s|
    requires NoWhitespace(s[p..q])
    ensures forall i :: 0 <= i < |SplitFrom(s, p, q)| ==> NoWhitespace(SplitFrom(s, p, q)[i])
    decreases |s| - q
  {
    if q == |s| {
      assert SplitFrom(s, p, q) == [s[p..]];
      assert s[p..] == s[p..q];
    } else if IsWhitespace(s[q]) {
      var e := RunEnd(s, q);
      assert s[e..e] == "";
      SplitFromClean(s, e, e);
      assert SplitFrom(s, p, q) == [s[p..q]] + SplitFrom(s, e, e);
    } else {
      assert s[p..q + 1] == s[p..q] + [s[q]];
      SplitFromClean(s, p, q + 1);
    }
  }

  lemma {:induction false} SplitFromConcat(s: string, p: nat, q: nat)
    requires p <= q <= |s|
    ensures Concat(SplitFrom(s, p, q)) == s[p..q] + RemoveWhitespace(s[q..])
    decreases |s| - q
  {
    var pieces := SplitFrom(s, p, q);
    if q == |s| {
      assert pieces == [s[p..]];
      assert s[q..] == "";
      assert s[p..] == s[p..q];
    } else if IsWhitespace(s[q]) {
      var e := RunEnd(s, q);
      SplitFromConcat(s, e, e);
      assert s[e..e] == "";
      SplitFromConcatRun(s, p, q);
    } else {
      SplitFromConcat(s, p, q + 1);
      assert s[p..q + 1] == s[p..q] + [s[q]];
      assert s[q..][1..] == s[q + 1..];
    }
  }

  /** The step of `SplitFromConcat` at a whitespace run, given the split
      resumed after the run. */
  lemma SplitFromConcatRun(s: string, p: nat, q: nat)
    requires p <= q < |s| && IsWhitespace(s[q])
    requires Concat(SplitFrom(s, RunEnd(s, q), RunEnd(s, q))) == RemoveWhitespace(s[RunEnd(s, q)..])
    ensures Concat(SplitFrom(s, p, q)) == s[p..q] + RemoveWhitespace(s[q..])
  {
    var e := RunEnd(s, q);
    var rest := SplitFrom(s, e, e);
    assert SplitFrom(s, p, q) == [s[p..q]] + rest;
    ConcatCons(s[p..q], rest);
    RemoveWhitespaceSkipRun(s, q, e);
  }

  lemma ConcatCons(a: string, rest: seq<string>)
    ensures Concat([a] + rest) == a + Concat(rest)
  {
    assert ([a] + rest)[1..] == rest;
  }

  /** A whitespace run contributes nothing once whitespace is removed. */
  lemma RemoveWhitespaceSkipRun(s: string, q: nat, e: nat)
    requires q <= e <= |s|
    requires forall k :: q <= k < e ==> IsWhitespace(s[k])
    ensures RemoveWhitespace(s[q..]) == RemoveWhitespace(s[e..])
  {
    assert s[q..] == s[q..e] + s[e..];
    RemoveWhitespaceAppend(s[q..e], s[e..]);
    RemoveWhitespaceOfRun(s[q..e]);
  }

  /** Once the rest holds no whitespace the split has a single piece. */
  lemma {:induction false} SplitFromWord(s: string, p: nat, q: nat)
    requires p <= q <= |s|
    requires NoWhitespace(s[q..])
    ensures SplitFrom(s, p, q) == [s[p..]]
    decreases |s| - q
  {
    if q < |s| {
      assert s[q..][0] == s[q];
      assert s[q + 1..] == s[q..][1..];
      SplitFromWord(s, p, q + 1);
    }
  }

  /** The split of `s[k..]` is the split of `s` resumed at `k`. */
  lemma {:induction false} SplitFromShift(s: string, k: nat, p: nat, q: nat)
    requires k <= p <= q <= |s|
    ensures SplitFrom(s, p, q) == SplitFrom(s[k..], p - k, q - k)
    decreases |s| - q
  {
    if q == |s| {
      assert s[p..] == s[k..][p - k..];
    } else if IsWhitespace(s[q]) {
      var e := RunEnd(s, q);
      SplitFromShift(s, k, e, e);
      RunEndShift(s, k, q);
      SplitFromShiftRun(s, k, p, q, e);
    } else {
      assert s[k..][q - k] == s[q];
      SplitFromShift(s, k, p, q + 1);
    }
  }

  /** The step of `SplitFromShift` at a whitespace run ending at `e`, given
      the shifted split resumed after the run. */
  lemma SplitFromShiftRun(s: string, k: nat, p: nat, q: nat, e: nat)
    requires k <= p <= q < |s| && IsWhitespace(s[q])
    requires e == RunEnd(s, q) && e == RunEnd(s[k..], q - k) + k
    requires SplitFrom(s, e, e) == SplitFrom(s[k..], e - k, e - k)
    ensures SplitFrom(s, p, q) == SplitFrom(s[k..], p - k, q - k)
  {
    var t := s[k..];
    assert t[q - k] == s[q];
    SplitFromAtRun(s, p, q);
    SplitFromAtRun(t, p - k, q - k);
    SliceShift(s, k, p, q);
    var f := RunEnd(t, q - k);
    assert f == e - k;
    assert SplitFrom(t, p - k, q - k) == [s[p..q]] + SplitFrom(t, f, f);
  }

  lemma SliceShift(s: string, k: nat, p: nat, q: nat)
    requires k <= p <= q <= |s|
    ensures s[p..q] == s[k..][p - k..q - k]
  {
    assert forall j :: p <= j < q ==> s[j] == s[k..][j - k];
  }

  /** One step of the split at a whitespace character. */
  lemma SplitFromAtRun(s: string, p: nat, q: nat)
    requires p <= q < |s| && IsWhitespace(s[q])
    ensures SplitFrom(s, p, q) == [s[p..q]] + SplitFrom(s, RunEnd(s, q), RunEnd(s, q))
  {
  }

  lemma {:induction false} RunEndShift(s: string, k: nat, q: nat)
    requires k <= q <= |s|
    ensures RunEnd(s, q) - k == RunEnd(s[k..], q - k)
    decreases |s| - q
  {
    if q < |s| {
      assert s[k..][q - k] == s[q];
      RunEndShift(s, k, q + 1);
    }
  }

  lemma {:induction false} DropEmptyConcat(pieces: seq<string>)
    ensures Concat(DropEmpty(pieces)) == Concat(pieces)
    decreases |pieces|
  {
    if |pieces| > 0 {
      DropEmptyConcat(pieces[1..]);
      var rest := DropEmpty(pieces[1..]);
      assert Concat(pieces) == pieces[0] + Concat(pieces[1..]);
      if |pieces[0]| > 0 {
        var kept := [pieces[0]] + rest;
        assert DropEmpty(pieces) == kept;
        assert kept[0] == pieces[0] && kept[1..] == rest;
        assert Concat(kept) == pieces[0] + Concat(rest);
      } else {
        assert DropEmpty(pieces) == rest;
        assert pieces[0] + Concat(pieces[1..]) == Concat(pieces[1..]);
      }
    }
  }

  lemma {:induction false} DropEmptyFromPieces(pieces: seq<string>)
    ensures forall i :: 0 <= i < |DropEmpty(pieces)| ==> DropEmpty(pieces)[i] in pieces
    decreases |pieces|
  {
    if |pieces| > 0 {
      DropEmptyFromPieces(pieces[1..]);
      var rest := DropEmpty(pieces[1..]);
      if |pieces[0]| > 0 {
        assert DropEmpty(pieces) == [pieces[0]] + rest;
      } else {
        assert DropEmpty(pieces) == rest;
      }
    }
  }

  lemma {:induction false} DropEmptyNonEmpty(pieces: seq<string>)
    ensures forall i :: 0 <= i < |DropEmpty(pieces)| ==> |DropEmpty(pieces)[i]| > 0
    decreases |pieces|
  {
    if |pieces| > 0 {
      DropEmptyNonEmpty(pieces[1..]);
      var rest := DropEmpty(pieces[1..]);
      if |pieces[0]| > 0 {
        assert DropEmpty(pieces) == [pieces[0]] + rest;
      } else {
        assert DropEmpty(pieces) == rest;
      }
    }
  }

  // ---------------------------------------------------------------------------
  // What segmentation promises

  lemma {:induction false} ConcatOfNonEmptyIsEmpty(pieces: seq<string>)
    requires forall i :: 0 <= i < |pieces| ==> |pieces[i]| > 0
    requires Concat(pieces) == ""
    ensures pieces == []
  {
    if |pieces| > 0 {
      assert false;
    }
  }

  /** Empty or whitespace-only text has no tokens. */
  lemma SegmentBlank(text: string)
    requires forall i :: 0 <= i < |text| ==> IsWhitespace(text[i])
    ensures Segment(text) == []
  {
    RemoveWhitespaceOfRun(text);
    ConcatOfNonEmptyIsEmpty(Segment(text));
  }

  /** Non-empty text without whitespace is a single token. */
  lemma SegmentWord(text: string)
    requires |text| > 0 && NoWhitespace(text)
    ensures Segment(text) == [text]
  {
    assert text[0..] == text;
    SplitFromWord(text, 0, 0);
    DropEmptyKeepsWords([text]);
  }

  /** Non-empty, whitespace-free words joined by single spaces. */
  function JoinWithSpaces(words: seq<string>): string
  {
    if |words| == 0 then "" else if |words| == 1 then words[0] else words[0] + " " + JoinWithSpaces(words[1..])
  }

  /** A word followed by a whitespace run and a word-initial rest splits into
      the word and the split of the rest. */
  lemma SplitAfterWord(w: string, rest: string)
    requires NoWhitespace(w)
    requires |rest| > 0 && !IsWhitespace(rest[0])
    ensures Split(w + " " + rest) == [w] + Split(rest)
  {
    var s := w + " " + rest;
    var n := |w|;
    assert s[0..0] == "";
    SplitScanWord(s, 0, n);
    assert IsWhitespace(s[n]);
    assert RunEnd(s, n + 1) == n + 1;
    assert RunEnd(s, n) == n + 1;
    assert s[0..n] == w;
    SplitFromShift(s, n + 1, n + 1, n + 1);
    assert s[n + 1..] == rest;
  }

  /** Scanning across word characters keeps the current piece open. */
  lemma {:induction false} SplitScanWord(s: string, p: nat, n: nat)
    requires p <= n <= |s|
    requires forall k :: p <= k < n ==> !IsWhitespace(s[k])
    ensures SplitFrom(s, p, p) == SplitFrom(s, p, n)
    decreases n - p
  {
    if p < n {
      SplitScanFrom(s, p, p, n);
    }
  }

  lemma {:induction false} SplitScanFrom(s: string, p: nat, q: nat, n: nat)
    requires p <= q <= n <= |s|
    requires forall k :: q <= k < n ==> !IsWhitespace(s[k])
    ensures SplitFrom(s, p, q) == SplitFrom(s, p, n)
    decreases n - q
  {
    if q < n {
      SplitScanFrom(s, p, q + 1, n);
    }
  }

  /** Splitting words joined by single spaces gives the words back (and the
      single empty piece for no words). */
  lemma {:induction false} SplitJoin(words: seq<string>)
    requires forall i :: 0 <= i < |words| ==> |words[i]| > 0 && NoWhitespace(words[i])
    ensures Split(JoinWithSpaces(words)) == (if |words| == 0 then [""] else words)
    decreases |words|
  {
    if |words| == 1 {
      assert JoinWithSpaces(words) == words[0];
      assert words[0][0..] == words[0];
      SplitFromWord(words[0], 0, 0);
    } else if |words| > 1 {
      SplitJoin(words[1..]);
      var rest := JoinWithSpaces(words[1..]);
      assert JoinWithSpaces(words) == words[0] + " " + rest;
      JoinStartsWithWord(words[1..]);
      SplitAfterWord(words[0], rest);
      assert [words[0]] + words[1..] == words;
    }
  }

  /** Segmenting words joined by spaces gives the words back. */
  lemma SegmentJoinRoundTrip(words: seq<string>)
    requires forall i :: 0 <= i < |words| ==> |words[i]| > 0 && NoWhitespace(words[i])
    ensures Split(JoinWithSpaces(words)) == (if |words| == 0 then [""] else words)
    ensures Segment(JoinWithSpaces(words)) == words
  {
    SplitJoin(words);
    if |words| == 0 {
      assert DropEmpty([""]) == [];
    } else {
      DropEmptyKeepsWords(words);
    }
  }

  lemma {:induction false} JoinStartsWithWord(words: seq<string>)
    requires |words| > 0
    requires forall i :: 0 <= i < |words| ==> |words[i]| > 0 && NoWhitespace(words[i])
    ensures |JoinWithSpaces(words)| > 0 && JoinWithSpaces(words)[0] == words[0][0]
  {
  }

  lemma {:induction false} DropEmptyKeepsWords(words: seq<string>)
    requires forall i :: 0 <= i < |words| ==> |words[i]| > 0
    ensures DropEmpty(words) == words
    decreases |words|
  {
    if |words| > 0 {
      DropEmptyKeepsWords(words[1..]);
    }
  }

  // ---------------------------------------------------------------------------
  // Every text is whitespace runs around words

  /** A run of whitespace, possibly empty. */
  predicate IsRun(s: string)
  {
    forall i :: 0 <= i < |s| ==> IsWhitespace(s[i])
  }

  /** `seps[0] + words[0] + seps[1] + … + words[n - 1] + seps[n]`. */
  function Interleave(seps: seq<string>, words: seq<string>): string
    requires |seps| == |words| + 1
    decreases |words|
  {
    if |words| == 0 then seps[0] else seps[0] + words[0] + Interleave(seps[1..], words[1..])
  }

  /** The words are non-empty and free of whitespace, the separators are
      whitespace runs, and every run between two words is non-empty; the runs
      at either edge may be empty. */
  predicate IsLayout(seps: seq<string>, words: seq<string>)
  {
    && |seps| == |words| + 1
    && (forall i :: 0 <= i < |words| ==> |words[i]| > 0 && NoWhitespace(words[i]))
    && (forall i :: 0 <= i < |seps| ==> IsRun(seps[i]))
    && (forall i :: 0 < i < |words| ==> |seps[i]| > 0)
  }

  /** The piece an edge run leaves in the split: none when the run is empty,
      one empty string otherwise. */
  function EdgePiece(sep: string): seq<string>
  {
    if sep == "" then [] else [""]
  }

  /** Every text has a layout: its whitespace runs around its maximal
      whitespace-free words. */
  function LayoutOf(s: string): (l: (seq<string>, seq<string>))
    ensures IsLayout(l.0, l.1) && Interleave(l.0, l.1) == s
    decreases |s|
  {
    if |s| == 0 then ([""], [])
    else
      var seps := LayoutOf(s[1..]).0;
      var words := LayoutOf(s[1..]).1;
      var c := s[0];
      assert s == [c] + s[1..];
      if IsWhitespace(c) then
        LayoutAddRun(seps, words, c);
        (seps[0 := [c] + seps[0]], words)
      else if seps[0] == "" && |words| > 0 then
        LayoutExtendWord(seps, words, c);
        (seps, words[0 := [c] + words[0]])
      else
        LayoutAddWord(seps, words, c);
        ([""] + seps, [[c]] + words)
  }

  /** The split of a layout: the words, with an empty piece for each non-empty
      edge run, and the single empty piece when there are no words. */
  lemma SplitLayout(seps: seq<string>, words: seq<string>)
    requires IsLayout(seps, words)
    ensures |words| == 0 ==> Split(Interleave(seps, words)) == EdgePiece(seps[0]) + [""]
    ensures |words| > 0 ==> Split(Interleave(seps, words)) == EdgePiece(seps[0]) + words + EdgePiece(seps[|words|])
  {
    if seps[0] != "" {
      var trimmed := seps[0 := ""];
      LayoutTrim(seps, words);
      SplitLayoutFromWord(trimmed, words);
      SplitLeadingRun(seps, words);
      assert EdgePiece(seps[0]) == [""];
      if |words| > 0 {
        assert trimmed[|words|] == seps[|words|];
      }
    } else {
      SplitLayoutFromWord(seps, words);
    }
  }

  /** A leading run adds one empty piece in front of the split of the rest. */
  lemma SplitLeadingRun(seps: seq<string>, words: seq<string>)
    requires IsLayout(seps, words) && seps[0] != ""
    ensures Split(Interleave(seps, words)) == [""] + Split(Interleave(seps[0 := ""], words))
  {
    var trimmed := seps[0 := ""];
    InterleaveHead(seps, words);
    var x := Interleave(trimmed, words);
    if |words| > 0 {
      InterleaveStart(trimmed, words);
    }
    assert "" + seps[0] + x == seps[0] + x;
    SplitWordRun("", seps[0], x);
  }

  /** The split of a layout without a leading run. */
  lemma {:induction false} SplitLayoutFromWord(seps: seq<string>, words: seq<string>)
    requires IsLayout(seps, words) && seps[0] == ""
    ensures Split(Interleave(seps, words)) == (if |words| == 0 then [""] else words + EdgePiece(seps[|words|]))
    decreases |words|
  {
    var n := |words|;
    if n == 0 {
      assert Split("") == [""];
    } else if n == 1 {
      assert Interleave(seps[1..], words[1..]) == seps[1];
      assert Interleave(seps, words) == "" + words[0] + seps[1];
      assert "" + words[0] + seps[1] == words[0] + seps[1];
      SplitWordEnd(words[0], seps[1]);
    } else {
      var trimmed := seps[1..][0 := ""];
      var rest := words[1..];
      LayoutTail(seps, words);
      var y := Interleave(trimmed, rest);
      InterleaveStart(trimmed, rest);
      SplitWordRun(words[0], seps[1], y);
      SplitLayoutFromWord(trimmed, rest);
      assert |rest| == n - 1 && |rest| != 0;
      assert Split(y) == rest + EdgePiece(seps[n]);
      assert [words[0]] + rest == words;
    }
  }

  /** A word followed by a run at the end of the text. */
  lemma SplitWordEnd(w: string, sep: string)
    requires NoWhitespace(w) && IsRun(sep)
    ensures Split(w + sep) == [w] + EdgePiece(sep)
  {
    if sep == "" {
      assert w + "" == w && w[0..] == w;
      SplitFromWord(w, 0, 0);
    } else {
      assert w + sep + "" == w + sep;
      SplitWordRun(w, sep, "");
      assert Split("") == [""];
    }
  }

  /** Emptying the first run keeps a layout. */
  lemma LayoutTrim(seps: seq<string>, words: seq<string>)
    requires IsLayout(seps, words)
    ensures IsLayout(seps[0 := ""], words)
  {
    assert forall i :: 0 < i < |seps| ==> seps[0 := ""][i] == seps[i];
  }

  /** After the first word and the run following it, the rest of a layout is a
      layout without a leading run. */
  lemma LayoutTail(seps: seq<string>, words: seq<string>)
    requires IsLayout(seps, words) && seps[0] == "" && |words| >= 2
    ensures IsLayout(seps[1..][0 := ""], words[1..])
    ensures seps[1..][0 := ""][|words| - 1] == seps[|words|]
    ensures Interleave(seps, words) == words[0] + seps[1] + Interleave(seps[1..][0 := ""], words[1..])
  {
    var tail := seps[1..];
    var trimmed := tail[0 := ""];
    assert forall i :: 0 < i < |tail| ==> trimmed[i] == seps[i + 1];
    assert forall i :: 0 <= i < |words| - 1 ==> words[1..][i] == words[i + 1];
    InterleaveHead(tail, words[1..]);
    assert Interleave(seps, words) == "" + words[0] + Interleave(tail, words[1..]);
  }

  /** Segmenting a layout gives exactly its words, whatever the runs between
      and around them. */
  lemma SegmentLayout(seps: seq<string>, words: seq<string>)
    requires IsLayout(seps, words)
    ensures Segment(Interleave(seps, words)) == words
  {
    SplitLayout(seps, words);
    var edge := EdgePiece(seps[0]);
    if |words| == 0 {
      SegmentOfSplit(Interleave(seps, words), edge + [""]);
    } else {
      var last := EdgePiece(seps[|words|]);
      assert edge + words + last == edge + (words + last);
      SegmentOfSplit(Interleave(seps, words), edge + (words + last));
    }
    DropEmptyLayoutPieces(seps, words);
  }

  /** Dropping the empty pieces of a layout's split leaves its words. */
  lemma DropEmptyLayoutPieces(seps: seq<string>, words: seq<string>)
    requires |seps| == |words| + 1
    requires forall i :: 0 <= i < |words| ==> |words[i]| > 0
    ensures DropEmpty(EdgePiece(seps[0]) + (if |words| == 0 then [""] else words + EdgePiece(seps[|words|]))) == words
  {
    if |words| == 0 {
      assert [] + [""] == [""];
      DropEmptyEdges(seps[0], [], [""]);
      assert DropEmpty([]) == [];
    } else {
      DropEmptyKeepsWords(words);
      DropEmptyEdges(seps[0], words, EdgePiece(seps[|words|]));
    }
  }

  /** Edge pieces vanish when empty pieces are dropped. */
  lemma DropEmptyEdges(sep: string, words: seq<string>, last: seq<string>)
    requires forall i :: 0 <= i < |last| ==> last[i] == ""
    ensures DropEmpty(EdgePiece(sep) + (words + last)) == DropEmpty(words)
  {
    var edge := EdgePiece(sep);
    DropEmptyAppend(edge, words + last);
    DropEmptyAppend(words, last);
    DropEmptyOfEmpties(last);
    DropEmptyOfEmpties(edge);
    assert [] + (DropEmpty(words) + []) == DropEmpty(words);
  }

  lemma SegmentOfSplit(text: string, pieces: seq<string>)
    requires Split(text) == pieces
    ensures Segment(text) == DropEmpty(pieces)
  {
  }

  lemma {:induction false} DropEmptyOfEmpties(pieces: seq<string>)
    requires forall i :: 0 <= i < |pieces| ==> pieces[i] == ""
    ensures DropEmpty(pieces) == []
    decreases |pieces|
  {
    if |pieces| > 0 {
      DropEmptyOfEmpties(pieces[1..]);
    }
  }

  /** The tokens of any text are the maximal whitespace-free stretches of it,
      in order. */
  lemma SegmentIsLayoutWords(text: string)
    ensures Segment(text) == LayoutOf(text).1
  {
    SegmentLayout(LayoutOf(text).0, LayoutOf(text).1);
  }

  /** A word, a non-empty whitespace run and a rest that does not start with
      whitespace split into the word and the split of the rest. The word may be
      empty: then a leading run leaves an empty first piece. */
  lemma SplitWordRun(w: string, sep: string, rest: string)
    requires NoWhitespace(w) && |sep| > 0 && IsRun(sep)
    requires |rest| == 0 || !IsWhitespace(rest[0])
    ensures Split(w + sep + rest) == [w] + Split(rest)
  {
    var s := w + sep + rest;
    var n := |w|;
    var e := n + |sep|;
    SplitScanWord(s, 0, n);
    RunEndOver(s, n, e);
    assert s[0..n] == w;
    SplitFromShift(s, e, e, e);
    assert s[e..] == rest;
  }

  /** A whitespace run from `q` to a non-whitespace character (or the end)
      ends at that character. */
  lemma {:induction false} RunEndOver(s: string, q: nat, e: nat)
    requires q <= e <= |s|
    requires forall k :: q <= k < e ==> IsWhitespace(s[k])
    requires e < |s| ==> !IsWhitespace(s[e])
    ensures RunEnd(s, q) == e
    decreases e - q
  {
    if q < e {
      RunEndOver(s, q + 1, e);
    }
  }

  /** A whitespace character in front of a layout joins its first run. */
  lemma LayoutAddRun(seps: seq<string>, words: seq<string>, c: char)
    requires IsLayout(seps, words) && IsWhitespace(c)
    ensures IsLayout(seps[0 := [c] + seps[0]], words)
    ensures Interleave(seps[0 := [c] + seps[0]], words) == [c] + Interleave(seps, words)
  {
    InterleavePrepend(seps, words, [c]);
    var seps' := seps[0 := [c] + seps[0]];
    forall i | 0 <= i < |seps'|
      ensures IsRun(seps'[i])
    {
      if i == 0 {
        assert forall k :: 1 <= k < |seps'[0]| ==> seps'[0][k] == seps[0][k - 1];
      }
    }
  }

  /** A word character in front of a layout that starts with a word joins that
      word. */
  lemma LayoutExtendWord(seps: seq<string>, words: seq<string>, c: char)
    requires IsLayout(seps, words) && !IsWhitespace(c)
    requires seps[0] == "" && |words| > 0
    ensures IsLayout(seps, words[0 := [c] + words[0]])
    ensures Interleave(seps, words[0 := [c] + words[0]]) == [c] + Interleave(seps, words)
  {
    var w := [c] + words[0];
    var words' := words[0 := w];
    assert NoWhitespace(w) by {
      assert forall k :: 1 <= k < |w| ==> w[k] == words[0][k - 1];
    }
    forall i | 0 <= i < |words'|
      ensures |words'[i]| > 0 && NoWhitespace(words'[i])
    {
      if i > 0 {
        assert words'[i] == words[i];
      }
    }
    assert words'[1..] == words[1..];
    var rest := Interleave(seps[1..], words[1..]);
    assert Interleave(seps, words') == "" + w + rest;
    assert Interleave(seps, words) == "" + words[0] + rest;
    assert "" + w + rest == [c] + ("" + words[0] + rest);
  }

  /** A word character in front of a layout that starts with whitespace (or has
      no words) begins a new word. */
  lemma LayoutAddWord(seps: seq<string>, words: seq<string>, c: char)
    requires IsLayout(seps, words) && !IsWhitespace(c)
    requires seps[0] != "" || |words| == 0
    ensures IsLayout([""] + seps, [[c]] + words)
    ensures Interleave([""] + seps, [[c]] + words) == [c] + Interleave(seps, words)
  {
    assert ([""] + seps)[1..] == seps && ([[c]] + words)[1..] == words;
    assert "" + [c] == [c];
  }

  lemma {:induction false} InterleaveHead(seps: seq<string>, words: seq<string>)
    requires |seps| == |words| + 1
    ensures Interleave(seps, words) == seps[0] + Interleave(seps[0 := ""], words)
  {
    if |words| > 0 {
      assert seps[0 := ""][1..] == seps[1..];
    }
  }

  lemma InterleavePrepend(seps: seq<string>, words: seq<string>, x: string)
    requires |seps| == |words| + 1
    ensures Interleave(seps[0 := x + seps[0]], words) == x + Interleave(seps, words)
  {
    InterleaveHead(seps, words);
    InterleaveHead(seps[0 := x + seps[0]], words);
    assert seps[0 := x + seps[0]][0 := ""] == seps[0 := ""];
  }

  lemma {:induction false} InterleaveStart(seps: seq<string>, words: seq<string>)
    requires |seps| == |words| + 1 && |words| > 0
    requires seps[0] == "" && |words[0]| > 0
    ensures |Interleave(seps, words)| > 0 && Interleave(seps, words)[0] == words[0][0]
  {
  }

  lemma {:induction false} DropEmptyAppend(a: seq<string>, b: seq<string>)
    ensures DropEmpty(a + b) == DropEmpty(a) + DropEmpty(b)
    decreases |a|
  {
    if |a| > 0 {
      DropEmptyAppend(a[1..], b);
      assert (a + b)[1..] == a[1..] + b;
    } else {
      assert a + b == b;
    }
  }
}

=== FILE: seqs.dfy ===
/** Sequence searches shared by the model: JavaScript's `Array.prototype.indexOf`,
    a first-match scan, and the `filter((x, i, self) => self.indexOf(x) === i)`
    idiom that keeps first occurrences. */
module Seqs {
  import opened Options

  /** `s.indexOf(x)`: the first position holding `x`, or -1 when there is none. */
  function IndexOf<T(==)>(s: seq<T>, x: T): (r: int)
    ensures -1 <= r < |s|
    ensures 0 <= r ==> s[r] == x && x !in s[..r]
    ensures r == -1 <==> x !in s
  {
    if |s| == 0 then -1
    else if s[0] == x then 0
    else
      var k := IndexOf(s[1..], x);
      assert s[1..][..k + 1] == s[1..k + 2] by { assert k + 1 <= |s[1..]|; }
      if k == -1 then -1 else k + 1
  }

  /** The position of the first element satisfying `p`, scanning in list order. */
  function FirstIndex<T>(s: seq<T>, p: T -> bool): (r: Option<nat>)
    ensures r.Some? ==> r.value < |s| && p(s[r.value])
    ensures r.Some? ==> forall j :: 0 <= j < r.value ==> !p(s[j])
    ensures r.None? <==> forall j :: 0 <= j < |s| ==> !p(s[j])
  {
    if |s| == 0 then None
    else if p(s[0]) then Some(0)
    else
      match FirstIndex(s[1..], p)
      case None => None
      case Some(k) => assert forall j :: 1 <= j < k + 1 ==> s[j] == s[1..][j - 1]; Some(k + 1)
  }

  /** A position holding `x` with no `x` before it is what `indexOf` finds. */
  lemma IndexOfAt<T>(s: seq<T>, x: T, k: nat)
    requires k < |s| && s[k] == x
    requires forall j :: 0 <= j < k ==> s[j] != x
    ensures IndexOf(s, x) == k
  {
    assert x in s;
  }

  predicate NoDuplicates<T(==)>(s: seq<T>)
  {
    forall i, j :: 0 <= i < j < |s| ==> s[i] != s[j]
  }

  /** Positions `i..` of `s` kept by the first-occurrence filter. */
  function KeepFirstFrom<T(==)>(s: seq<T>, i: nat): seq<T>
    decreases |s| - i
  {
    if i >= |s| then []
    else (if IndexOf(s, s[i]) == i then [s[i]] else []) + KeepFirstFrom(s, i + 1)
  }

  /** A value that does not occur before `i` is kept. */
  lemma KeepFirstFromKeeps<T>(s: seq<T>, i: nat)
    requires i < |s|
    requires forall j :: 0 <= j < i ==> s[j] != s[i]
    ensures KeepFirstFrom(s, i) == [s[i]] + KeepFirstFrom(s, i + 1)
  {
    IndexOfAt(s, s[i], i);
  }

  /** A value that already occurred at `j` is dropped at `i`. */
  lemma KeepFirstFromSkips<T>(s: seq<T>, i: nat, j: nat)
    requires j < i < |s| && s[j] == s[i]
    ensures KeepFirstFrom(s, i) == KeepFirstFrom(s, i + 1)
  {
  }

  /** `s.filter((x, i, self) => self.indexOf(x) === i)`. */
  function FirstOccurrences<T(==)>(s: seq<T>): seq<T>
  {
    KeepFirstFrom(s, 0)
  }

  /** What the filter keeps from position `i` on: exactly the values whose first
      occurrence lies at or after `i`. */
  lemma {:induction false} KeepFirstFromMembers<T>(s: seq<T>, i: nat, x: T)
    ensures x in KeepFirstFrom(s, i) <==> (x in s && IndexOf(s, x) >= i)
    decreases |s| - i
  {
    if i < |s| {
      KeepFirstFromMembers(s, i + 1, x);
      var head := if IndexOf(s, s[i]) == i then [s[i]] else [];
      var rest := KeepFirstFrom(s, i + 1);
      assert KeepFirstFrom(s, i) == head + rest;
      assert x in head <==> (x == s[i] && IndexOf(s, x) == i);
      if x in s && IndexOf(s, x) == i {
        assert s[i] == x;
      }
    }
  }

  lemma {:induction false} KeepFirstFromNoDuplicates<T>(s: seq<T>, i: nat)
    ensures NoDuplicates(KeepFirstFrom(s, i))
    decreases |s| - i
  {
    if i < |s| {
      KeepFirstFromNoDuplicates(s, i + 1);
      if IndexOf(s, s[i]) == i {
        KeepFirstFromMembers(s, i + 1, s[i]);
        var rest := KeepFirstFrom(s, i + 1);
        assert s[i] !in rest;
        assert KeepFirstFrom(s, i) == [s[i]] + rest;
      }
    }
  }

  /** The values of `k` come in the order of their first occurrence in `s`. */
  predicate InFirstOccurrenceOrder<T(==)>(s: seq<T>, k: seq<T>)
  {
    forall a, b :: 0 <= a < b < |k| ==> IndexOf(s, k[a]) < IndexOf(s, k[b])
  }

  /** What the filter keeps from `i` on comes in the order of first occurrence. */
  lemma {:induction false} KeepFirstFromOrdered<T>(s: seq<T>, i: nat)
    ensures InFirstOccurrenceOrder(s, KeepFirstFrom(s, i))
    decreases |s| - i
  {
    if i < |s| {
      KeepFirstFromOrdered(s, i + 1);
      var rest := KeepFirstFrom(s, i + 1);
      if IndexOf(s, s[i]) == i {
        forall j | 0 <= j < |rest|
          ensures IndexOf(s, s[i]) < IndexOf(s, rest[j])
        {
          KeepFirstFromMembers(s, i + 1, rest[j]);
        }
        OrderedCons(s, s[i], rest);
        assert KeepFirstFrom(s, i) == [s[i]] + rest;
      } else {
        assert KeepFirstFrom(s, i) == rest;
      }
    }
  }

  lemma OrderedCons<T>(s: seq<T>, x: T, rest: seq<T>)
    requires InFirstOccurrenceOrder(s, rest)
    requires forall j :: 0 <= j < |rest| ==> IndexOf(s, x) < IndexOf(s, rest[j])
    ensures InFirstOccurrenceOrder(s, [x] + rest)
  {
    var k := [x] + rest;
    forall a, b | 0 <= a < b < |k|
      ensures IndexOf(s, k[a]) < IndexOf(s, k[b])
    {
      assert k[b] == rest[b - 1];
      if a > 0 {
        assert k[a] == rest[a - 1];
      }
    }
  }

  /** The first-occurrence filter removes every repeat, loses no value, keeps
      the values in the order they first appear, and starts with the first
      element. */
  lemma FirstOccurrencesSpec<T>(s: seq<T>)
    ensures NoDuplicates(FirstOccurrences(s))
    ensures forall x :: x in FirstOccurrences(s) <==> x in s
    ensures InFirstOccurrenceOrder(s, FirstOccurrences(s))
    ensures |s| > 0 ==> |FirstOccurrences(s)| > 0 && FirstOccurrences(s)[0] == s[0]
  {
    KeepFirstFromOrdered(s, 0);
    KeepFirstFromNoDuplicates(s, 0);
    forall x
      ensures x in FirstOccurrences(s) <==> x in s
    {
      KeepFirstFromMembers(s, 0, x);
    }
    if |s| > 0 {
      assert IndexOf(s, s[0]) == 0;
    }
  }

  /** Four distinct entries are all kept. */
  lemma FirstOccurrencesDistinctFour<T>(s: seq<T>)
    requires |s| == 4
    requires s[1] != s[2] && s[1] != s[3] && s[2] != s[3]
    requires s[0] != s[1] && s[0] != s[2] && s[0] != s[3]
    ensures FirstOccurrences(s) == s
  {
    assert KeepFirstFrom(s, 4) == [];
    KeepFirstFromKeeps(s, 3);
    assert KeepFirstFrom(s, 3) == [s[3]];
    KeepFirstFromKeeps(s, 2);
    assert KeepFirstFrom(s, 2) == [s[2], s[3]];
    KeepFirstFromKeeps(s, 1);
    assert KeepFirstFrom(s, 1) == [s[1], s[2], s[3]];
    KeepFirstFromKeeps(s, 0);
  }

  /** Four entries whose only repeat is the second equal to the first: the
      second is dropped. */
  lemma FirstOccurrencesRepeatAt1<T>(s: seq<T>)
    requires |s| == 4
    requires s[1] != s[2] && s[1] != s[3] && s[2] != s[3] && s[0] == s[1]
    ensures FirstOccurrences(s) == [s[0], s[2], s[3]]
  {
    assert KeepFirstFrom(s, 4) == [];
    KeepFirstFromKeeps(s, 3);
    assert KeepFirstFrom(s, 3) == [s[3]];
    KeepFirstFromKeeps(s, 2);
    assert KeepFirstFrom(s, 2) == [s[2], s[3]];
    KeepFirstFromSkips(s, 1, 0);
    KeepFirstFromKeeps(s, 0);
  }

  /** Four entries whose only repeat is the third equal to the first: the
      third is dropped. */
  lemma FirstOccurrencesRepeatAt2<T>(s: seq<T>)
    requires |s| == 4
    requires s[1] != s[2] && s[1] != s[3] && s[2] != s[3] && s[0] == s[2]
    ensures FirstOccurrences(s) == [s[0], s[1], s[3]]
  {
    assert KeepFirstFrom(s, 4) == [];
    KeepFirstFromKeeps(s, 3);
    assert KeepFirstFrom(s, 3) == [s[3]];
    KeepFirstFromSkips(s, 2, 0);
    KeepFirstFromKeeps(s, 1);
    assert KeepFirstFrom(s, 1) == [s[1], s[3]];
    KeepFirstFromKeeps(s, 0);
  }

  /** Four entries whose only repeat is the fourth equal to the first: the
      fourth is dropped. */
  lemma FirstOccurrencesRepeatAt3<T>(s: seq<T>)
    requires |s| == 4
    requires s[1] != s[2] && s[1] != s[3] && s[2] != s[3] && s[0] == s[3]
    ensures FirstOccurrences(s) == [s[0], s[1], s[2]]
  {
    assert KeepFirstFrom(s, 4) == [];
    KeepFirstFromSkips(s, 3, 0);
    KeepFirstFromKeeps(s, 2);
    assert KeepFirstFrom(s, 2) == [s[2]];
    KeepFirstFromKeeps(s, 1);
    assert KeepFirstFrom(s, 1) == [s[1], s[2]];
    KeepFirstFromKeeps(s, 0);
  }
}

=== FILE: strings.dfy ===
/** Decimal text of integers (JavaScript's `String(n)` for integral values)
    and substring search (`String.prototype.includes`). */
module Strings {

  predicate IsDigit(c: char)
  {
    '0' <= c <= '9'
  }

  predicate AllDigits(s: string)
  {
    forall i :: 0 <= i < |s| ==> IsDigit(s[i])
  }

  function DigitChar(d: nat): (c: char)
    requires d < 10
  {
    "0123456789"[d]
  }

  function DigitValue(c: char): nat
    requires IsDigit(c)
  {
    (c as int) - ('0' as int)
  }

  /** Decimal digits of `n`, most significant first, without leading zeros. */
  function NatToString(n: nat): string
    decreases n
  {
    if n < 10 then [DigitChar(n)] else NatToString(n / 10) + [DigitChar(n % 10)]
  }

  /** Decimal text of an integer, with a leading '-' when it is negative. */
  function IntToString(i: int): string
  {
    if i < 0 then "-" + NatToString(-i) else NatToString(i)
  }

  /** The value of a string of decimal digits (0 for the empty string). */
  function ParseNat(s: string): nat
    requires AllDigits(s)
  {
    if |s| == 0 then 0 else ParseNat(s[..|s| - 1]) * 10 + DigitValue(s[|s| - 1])
  }

  lemma {:induction false} DigitRoundTrip(d: nat)
    requires d < 10
    ensures IsDigit(DigitChar(d)) && DigitValue(DigitChar(d)) == d
  {
    assert "0123456789"[d] as int == '0' as int + d by {
      if d == 0 {} else if d == 1 {} else if d == 2 {} else if d == 3 {} else if d == 4 {}
      else if d == 5 {} else if d == 6 {} else if d == 7 {} else if d == 8 {} else {}
    }
  }

  /** Decimal text is non-empty, made of digits, and reads back as the number. */
  lemma {:induction false} NatToStringRoundTrip(n: nat)
    ensures |NatToString(n)| >= 1 && AllDigits(NatToString(n))
    ensures ParseNat(NatToString(n)) == n
    decreases n
  {
    if n < 10 {
      DigitRoundTrip(n);
    } else {
      NatToStringRoundTrip(n / 10);
      DigitRoundTrip(n % 10);
      var s := NatToString(n);
      assert s[..|s| - 1] == NatToString(n / 10);
    }
  }

  /** The length JavaScript reports for `s`: it counts UTF-16 code units, so a
      character above U+FFFF, stored as a surrogate pair, counts twice. */
  function Utf16Length(s: string): (n: nat)
    ensures |s| <= n <= 2 * |s|
    ensures (forall i :: 0 <= i < |s| ==> s[i] as int <= 0xFFFF) ==> n == |s|
    decreases |s|
  {
    if |s| == 0 then 0
    else
      var rest := Utf16Length(s[1..]);
      assert forall i :: 1 <= i < |s| ==> s[1..][i - 1] == s[i];
      (if s[0] as int > 0xFFFF then 2 else 1) + rest
  }

  predicate StartsWith(s: string, prefix: string)
  {
    |prefix| <= |s| && s[..|prefix|] == prefix
  }

  /** `s.includes(p)`, as a left-to-right scan of the start positions of `s`. */
  function Contains(s: string, p: string): bool
    decreases |s|
  {
    if StartsWith(s, p) then true
    else if |s| == 0 then false
    else Contains(s[1..], p)
  }

  /** `p` occurs in `s` starting at position `i`. */
  predicate OccursAt(s: string, p: string, i: int)
  {
    0 <= i <= |s| - |p| && s[i..i + |p|] == p
  }

  /** The scan finds `p` exactly when `p` occurs at some position of `s`. */
  lemma {:induction false} ContainsIff(s: string, p: string)
    ensures Contains(s, p) <==> exists i :: OccursAt(s, p, i)
    decreases |s|
  {
    if StartsWith(s, p) {
      assert OccursAt(s, p, 0);
    } else if |s| == 0 {
      assert forall i :: !OccursAt(s, p, i);
    } else {
      ContainsIff(s[1..], p);
      StartsAtZero(s, p);
      if exists i :: OccursAt(s, p, i) {
        var i :| OccursAt(s, p, i);
        assert i != 0;
        assert s[1..][i - 1..i - 1 + |p|] == s[i..i + |p|];
        assert OccursAt(s[1..], p, i - 1);
      }
      if exists i :: OccursAt(s[1..], p, i) {
        var i :| OccursAt(s[1..], p, i);
        assert s[1..][i..i + |p|] == s[i + 1..i + 1 + |p|];
        assert OccursAt(s, p, i + 1);
      }
    }
  }

  /** An occurrence at position 0 is a prefix. */
  lemma StartsAtZero(s: string, p: string)
    ensures OccursAt(s, p, 0) <==> StartsWith(s, p)
  {
    if |p| <= |s| {
      assert s[0..|p|] == s[..|p|];
    }
  }

  /** A string never contains a longer string. */
  lemma {:induction false} ContainsNeedsLength(s: string, p: string)
    requires Contains(s, p)
    ensures |p| <= |s|
  {
    ContainsIff(s, p);
  }
}

=== FILE: subtitle_display.dfy ===
/** What the subtitle overlay renders (`SubtitleDisplay` in
    src/components/SubtitleDisplay.tsx): a subtitle without Korean is shown
    whole; a Korean one is cut into clickable words, each with its dictionary
    translation. The dictionary module is not part of this model and is a
    parameter. */
module SubtitleDisplay {
  import opened KoreanText
  import opened Segmentation

  /** The text shown when the dictionary has nothing for a word. */
  const NoTranslation: string := "Translation not available"

  /** `koreanDictionary[word] || 'Translation not available'`: a missing or
      empty entry falls back to the default. */
  function Translate(dictionary: map<string, string>, word: string): (r: string)
    ensures word in dictionary && dictionary[word] != "" ==> r == dictionary[word]
    ensures word !in dictionary || dictionary[word] == "" ==> r == NoTranslation
    ensures r != ""
  {
    if word in dictionary && dictionary[word] != "" then dictionary[word] else NoTranslation
  }

  /** A clickable word with the translation shown on hover and passed to the
      word-selection callback. */
  datatype WordCard = WordCard(word: string, translation: string)

  datatype Rendering = Whole(text: string) | Words(cards: seq<WordCard>)

  function Cards(words: seq<string>, dictionary: map<string, string>): (cards: seq<WordCard>)
    ensures |cards| == |words|
    ensures forall i :: 0 <= i < |words| ==> cards[i] == WordCard(words[i], Translate(dictionary, words[i]))
  {
    seq(|words|, i requires 0 <= i < |words| => WordCard(words[i], Translate(dictionary, words[i])))
  }

  /** The overlay's content for `subtitle`. */
  function Render(subtitle: string, dictionary: map<string, string>): (r: Rendering)
    ensures !ContainsKorean(subtitle) ==> r == Whole(subtitle)
    ensures ContainsKorean(subtitle) ==> r.Words? && |r.cards| == |Segment(subtitle)|
    ensures ContainsKorean(subtitle) ==> forall i :: 0 <= i < |r.cards| ==>
              r.cards[i].word == Segment(subtitle)[i] && r.cards[i].translation == Translate(dictionary, r.cards[i].word)
  {
    if !ContainsKorean(subtitle) then Whole(subtitle)
    else Words(Cards(Segment(subtitle), dictionary))
  }

  /** Korean code units are never whitespace. */
  lemma KoreanIsNotWhitespace(c: char)
    requires IsKoreanUnit(c)
    ensures !IsWhitespace(c)
  {
  }

  /** Text with a character outside whitespace keeps it when whitespace is
      removed. */
  lemma {:induction false} RemoveWhitespaceKeeps(text: string, i: nat)
    requires i < |text| && !IsWhitespace(text[i])
    ensures |RemoveWhitespace(text)| > 0
    decreases |text|
  {
    if i > 0 && IsWhitespace(text[0]) {
      RemoveWhitespaceKeeps(text[1..], i - 1);
    }
  }

  /** A Korean subtitle renders at least one word, every word is non-empty and
      free of whitespace, the words spell the subtitle without its whitespace,
      and every card has a non-empty translation. */
  lemma KoreanRenderingSpec(subtitle: string, dictionary: map<string, string>)
    requires ContainsKorean(subtitle)
    ensures |Render(subtitle, dictionary).cards| > 0
    ensures forall i :: 0 <= i < |Render(subtitle, dictionary).cards| ==>
              |Render(subtitle, dictionary).cards[i].word| > 0 &&
              NoWhitespace(Render(subtitle, dictionary).cards[i].word) &&
              Render(subtitle, dictionary).cards[i].translation != ""
    ensures Concat(Segment(subtitle)) == RemoveWhitespace(subtitle)
  {
    var i :| 0 <= i < |subtitle| && IsKoreanUnit(subtitle[i]);
    KoreanIsNotWhitespace(subtitle[i]);
    RemoveWhitespaceKeeps(subtitle, i);
  }

  /** A single Korean word with no spaces becomes exactly one card. */
  lemma SingleKoreanWord(word: string, dictionary: map<string, string>)
    requires ContainsKorean(word) && NoWhitespace(word)
    ensures Render(word, dictionary) == Words([WordCard(word, Translate(dictionary, word))])
  {
    SegmentWord(word);
  }
}

=== FILE: subtitle_fetch.dfy ===
/** Subtitle retrieval in src/utils/youtubeUtils.ts: the mapping of the proxy's
    records to cues, the failure routing of `fetchYoutubeSubtitles`, and the
    language fallback of `fetchSubtitlesWithFallback`. The HTTP request and
    JSON decoding are not modelled: their outcome is a parameter. */
module SubtitleFetch {
  import opened Options
  import opened Seqs
  import opened Cues

  /** One record from the proxy. `dur` is `None` when the field is absent or
      falsy, in which case the source substitutes "5". */
  datatype RawSubtitle = RawSubtitle(start: real, dur: Option<real>, text: string)

  /** The decoded JSON body: whether `data.error` is truthy, and the
      `subtitles` list (`None` when the field is missing). */
  datatype Body = Body(hasError: bool, subtitles: Option<seq<RawSubtitle>>)

  /** How one request ended: it threw (network failure, a body that is not
      JSON, or no request at all), returned a non-ok status, or returned an ok
      status with a body. */
  datatype Response = Threw | NotOk | Ok(body: Body)

  /** The duration assumed for a record without one. */
  const DefaultDuration: real := 5.0

  /** `{start, end: start + (dur || 5), text}`. */
  function ToCue(r: RawSubtitle): Cue
  {
    Cue(r.start, r.start + r.dur.GetOr(DefaultDuration), r.text)
  }

  /** `data.subtitles.map(...)`: one cue per record, in order. */
  function MapSubtitles(raws: seq<RawSubtitle>): (cues: seq<Cue>)
    ensures |cues| == |raws|
    ensures forall i :: 0 <= i < |raws| ==> cues[i].start == raws[i].start && cues[i].text == raws[i].text
    ensures forall i :: 0 <= i < |raws| && raws[i].dur.Some? ==> cues[i].end == raws[i].start + raws[i].dur.value
    ensures forall i :: 0 <= i < |raws| && raws[i].dur.None? ==> cues[i].end == raws[i].start + DefaultDuration
  {
    seq(|raws|, i requires 0 <= i < |raws| => ToCue(raws[i]))
  }

  /** Records with non-negative durations give cues that contain their own
      start time, so every such record is reachable by the lookup. */
  lemma MappedCuesContainTheirStart(raws: seq<RawSubtitle>, i: nat)
    requires i < |raws|
    requires raws[i].dur.Some? ==> raws[i].dur.value >= 0.0
    ensures Covers(MapSubtitles(raws)[i], raws[i].start)
  {
  }

  /** The mapping keeps the texts in order and can be read back: start and
      duration are recovered from each cue. */
  lemma MapSubtitlesRecoverable(raws: seq<RawSubtitle>, i: nat)
    requires i < |raws|
    ensures var c := MapSubtitles(raws)[i];
            c.start == raws[i].start && c.end - c.start == raws[i].dur.GetOr(DefaultDuration)
  {
  }

  /** The request gave usable subtitles: ok status, no error field, and a
      non-empty list. */
  predicate Serves(r: Response)
  {
    r.Ok? && !r.body.hasError && r.body.subtitles.Some? && |r.body.subtitles.value| > 0
  }

  /** `fetchYoutubeSubtitles`: every failure returns the fallback list and
      none escapes as an exception. */
  function FetchYoutubeSubtitles(response: Response, fallback: seq<Cue>): (cues: seq<Cue>)
    ensures Serves(response) ==> cues == MapSubtitles(response.body.subtitles.value)
    ensures !Serves(response) ==> cues == fallback
    ensures Serves(response) ==> |cues| > 0
  {
    match response
    case Threw => fallback
    case NotOk => fallback
    case Ok(body) =>
      if body.hasError then fallback
      else if body.subtitles.None? || |body.subtitles.value| == 0 then fallback
      else MapSubtitles(body.subtitles.value)
  }

  /** Each failure named by the source ends in the fallback list. */
  lemma FetchFailuresFallBack(fallback: seq<Cue>, subs: Option<seq<RawSubtitle>>)
    ensures FetchYoutubeSubtitles(Threw, fallback) == fallback
    ensures FetchYoutubeSubtitles(NotOk, fallback) == fallback
    ensures FetchYoutubeSubtitles(Ok(Body(true, subs)), fallback) == fallback
    ensures FetchYoutubeSubtitles(Ok(Body(false, None)), fallback) == fallback
    ensures FetchYoutubeSubtitles(Ok(Body(false, Some([]))), fallback) == fallback
  {
  }

  // ---------------------------------------------------------------------------
  // Language fallback

  /** The fixed languages other than `preferred`, in order. */
  function OtherLanguages(preferred: string): seq<string>
  {
    (if preferred == "ko" then [] else ["ko"]) +
    (if preferred == "en" then [] else ["en"]) +
    (if preferred == "auto" then [] else ["auto"])
  }

  /** `[preferred, 'ko', 'en', 'auto']` with repeats removed, first occurrence
      kept: `preferred` followed by the fixed languages in their order, with
      `preferred` left out of them. */
  function LanguagesToTry(preferred: string): (langs: seq<string>)
    ensures langs == [preferred] + OtherLanguages(preferred)
  {
    var s := [preferred, "ko", "en", "auto"];
    if preferred == "ko" then FirstOccurrencesRepeatAt1(s); FirstOccurrences(s)
    else if preferred == "en" then FirstOccurrencesRepeatAt2(s); FirstOccurrences(s)
    else if preferred == "auto" then FirstOccurrencesRepeatAt3(s); FirstOccurrences(s)
    else FirstOccurrencesDistinctFour(s); FirstOccurrences(s)
  }

  /** No language is tried twice, the preferred one is tried first, every
      fixed language is tried, and there are three or four attempts. */
  lemma LanguagesToTrySpec(preferred: string)
    ensures NoDuplicates(LanguagesToTry(preferred))
    ensures LanguagesToTry(preferred)[0] == preferred
    ensures "ko" in LanguagesToTry(preferred) && "en" in LanguagesToTry(preferred) && "auto" in LanguagesToTry(preferred)
    ensures |LanguagesToTry(preferred)| == (if preferred in ["ko", "en", "auto"] then 3 else 4)
  {
    FirstOccurrencesSpec([preferred, "ko", "en", "auto"]);
  }

  /** The request for one language gave usable subtitles. Unlike
      `fetchYoutubeSubtitles`, this loop does not look at the error field. */
  predicate ServesLanguage(r: Response)
  {
    r.Ok? && r.body.subtitles.Some? && |r.body.subtitles.value| > 0
  }

  /** `fetchSubtitlesWithFallback`'s loop over `langs`: the first language
      whose request serves subtitles gives the result; a failed or empty
      attempt (including an exception) moves on; after the last, the fallback
      list. `respond` gives each language's outcome. */
  function TryLanguages(langs: seq<string>, respond: string -> Response, fallback: seq<Cue>): (cues: seq<Cue>)
    ensures cues == fallback || exists i :: 0 <= i < |langs| && Answers(langs[i], respond, cues)
    decreases |langs|
  {
    if |langs| == 0 then fallback
    else if ServesLanguage(respond(langs[0])) then MapSubtitles(respond(langs[0]).body.subtitles.value)
    else
      var rest := TryLanguages(langs[1..], respond, fallback);
      assert forall i :: 0 <= i < |langs[1..]| ==> langs[1..][i] == langs[i + 1];
      rest
  }

  /** `cues` is what a request for `lang` served. */
  predicate Answers(lang: string, respond: string -> Response, cues: seq<Cue>)
  {
    ServesLanguage(respond(lang)) && cues == MapSubtitles(respond(lang).body.subtitles.value)
  }

  /** The loop's result is the mapping of the first serving language in list
      order, or the fallback list when none serves. */
  lemma {:induction false} TryLanguagesFirstServing(langs: seq<string>, respond: string -> Response, fallback: seq<Cue>)
    ensures match FirstIndex(langs, (l: string) => ServesLanguage(respond(l)))
            case Some(i) => TryLanguages(langs, respond, fallback) == MapSubtitles(respond(langs[i]).body.subtitles.value)
            case None => TryLanguages(langs, respond, fallback) == fallback
    decreases |langs|
  {
    if |langs| > 0 && !ServesLanguage(respond(langs[0])) {
      TryLanguagesFirstServing(langs[1..], respond, fallback);
      var p := (l: string) => ServesLanguage(respond(l));
      var rest := FirstIndex(langs[1..], p);
      if rest.Some? {
        assert langs[1..][rest.value] == langs[rest.value + 1];
        assert FirstIndex(langs, p) == Some(rest.value + 1);
      } else {
        assert FirstIndex(langs, p) == None;
      }
    }
  }

  /** `fetchSubtitlesWithFallback(videoId, preferred)`: the fallback list, or
      the cues some tried language served. */
  function FetchSubtitlesWithFallback(preferred: string, respond: string -> Response, fallback: seq<Cue>): (cues: seq<Cue>)
    ensures cues == fallback || exists i :: 0 <= i < |LanguagesToTry(preferred)| && Answers(LanguagesToTry(preferred)[i], respond, cues)
  {
    TryLanguages(LanguagesToTry(preferred), respond, fallback)
  }

  /** When the preferred language serves, no other language is consulted; when
      no language serves, the fallback list is returned. */
  lemma FetchWithFallbackOutcomes(preferred: string, respond: string -> Response, fallback: seq<Cue>)
    ensures ServesLanguage(respond(preferred)) ==>
              FetchSubtitlesWithFallback(preferred, respond, fallback) == MapSubtitles(respond(preferred).body.subtitles.value)
    ensures (forall l :: !ServesLanguage(respond(l))) ==>
              FetchSubtitlesWithFallback(preferred, respond, fallback) == fallback
  {
    TryLanguagesFirstServing(LanguagesToTry(preferred), respond, fallback);
  }
}

=== FILE: time_format.dfy ===
/** The `m:ss` clock under the progress bar (`formatTime` in
    src/components/VideoPlayer.tsx), with JavaScript's `Math.floor` and its
    truncating remainder operator written out over `real`. */
module TimeFormat {
  import opened Options
  import opened Strings

  /** Rounding toward zero, the quotient JavaScript's `%` is built on. */
  function Trunc(x: real): int
  {
    if x >= 0.0 then x.Floor else -((-x).Floor)
  }

  /** JavaScript's `x % m`: the remainder takes the sign of `x`. */
  function JsRemainder(x: real, m: real): real
    requires m != 0.0
  {
    x - m * (Trunc(x / m) as real)
  }

  /** The two digits of a value below 60. */
  function TwoDigits(k: nat): string
    requires k < 60
  {
    [DigitChar(k / 10), DigitChar(k % 10)]
  }

  /** The clock of `n` whole seconds: the whole minutes, a colon, and the
      leftover seconds zero-padded to exactly two digits. */
  function ClockText(n: nat): string
  {
    NatToString(n / 60) + ":" + TwoDigits(n % 60)
  }

  /** `${Math.floor(s / 60)}:${secs < 10 ? '0' : ''}${secs}` with
      `secs = Math.floor(s % 60)`. For the non-negative times the player
      passes, the text depends on the whole seconds only and is their `m:ss`
      clock. */
  function FormatTime(seconds: real): (clock: string)
    ensures seconds >= 0.0 ==> clock == ClockText(seconds.Floor)
  {
    var mins := (seconds / 60.0).Floor;
    var secs := JsRemainder(seconds, 60.0).Floor;
    var text := IntToString(mins) + ":" + (if secs < 10 then "0" else "") + IntToString(secs);
    if seconds >= 0.0 then FloorsOfNonNegative(seconds); PaddedSeconds(secs); text
    else text
  }

  /** A second count below 60, zero-padded when it has one digit, is its two
      digits. */
  lemma PaddedSeconds(k: nat)
    requires k < 60
    ensures (if k < 10 then "0" else "") + IntToString(k) == TwoDigits(k)
  {
    if k < 10 {
      assert NatToString(k) == [DigitChar(k)];
    } else {
      assert NatToString(k) == NatToString(k / 10) + [DigitChar(k % 10)];
      assert NatToString(k / 10) == [DigitChar(k / 10)];
    }
  }

  /** For a non-negative time the two floors are the quotient and remainder of
      the whole seconds by 60. */
  lemma FloorsOfNonNegative(x: real)
    requires x >= 0.0
    ensures (x / 60.0).Floor == x.Floor / 60
    ensures JsRemainder(x, 60.0).Floor == x.Floor % 60
  {
    var n := x.Floor;
    var q := n / 60;
    var m := n % 60;
    assert n == 60 * q + m;
    assert (q as real) * 60.0 <= x;
    assert x < (q as real) * 60.0 + 60.0;
    assert (x / 60.0).Floor == q;
    assert Trunc(x / 60.0) == q;
    var r := JsRemainder(x, 60.0);
    assert r == x - 60.0 * (q as real);
    assert (m as real) <= r < (m as real) + 1.0;
  }

  /** Reads an `m:ss` clock back into whole seconds; `None` when the text is
      not of that shape or the seconds field is 60 or more. */
  function ParseClock(s: string): Option<nat>
  {
    if |s| < 4 || s[|s| - 3] != ':' then None
    else
      var mins := s[..|s| - 3];
      var secs := s[|s| - 2..];
      if AllDigits(mins) && AllDigits(secs) && ParseNat(secs) < 60
      then Some(ParseNat(mins) * 60 + ParseNat(secs))
      else None
  }

  /** Two-digit text reads back as its value. */
  lemma TwoDigitsRoundTrip(k: nat)
    requires k < 60
    ensures |TwoDigits(k)| == 2 && AllDigits(TwoDigits(k))
    ensures ParseNat(TwoDigits(k)) == k
  {
    DigitRoundTrip(k / 10);
    DigitRoundTrip(k % 10);
    var t := TwoDigits(k);
    assert t == [DigitChar(k / 10), DigitChar(k % 10)];
    var hi := t[..1];
    assert hi == [DigitChar(k / 10)] && hi[..0] == [];
    assert ParseNat(hi) == DigitValue(DigitChar(k / 10));
    assert t[..|t| - 1] == hi && t[|t| - 1] == DigitChar(k % 10);
    assert ParseNat(t) == ParseNat(hi) * 10 + DigitValue(DigitChar(k % 10));
  }

  /** Minutes text, a colon and two-digit seconds below 60 parse as
      `minutes * 60 + seconds`. */
  lemma ParseClockJoin(mins: string, secs: string)
    requires |mins| >= 1 && AllDigits(mins)
    requires |secs| == 2 && AllDigits(secs) && ParseNat(secs) < 60
    ensures ParseClock(mins + ":" + secs) == Some(ParseNat(mins) * 60 + ParseNat(secs))
  {
    var s := mins + ":" + secs;
    assert |s| == |mins| + 3 && |s| >= 4;
    assert s[|s| - 3] == ':';
    var m := s[..|s| - 3];
    var t := s[|s| - 2..];
    assert m == mins;
    assert t == secs;
    assert AllDigits(m) && AllDigits(t) && ParseNat(t) < 60;
  }

  /** The clock text of `q` minutes and `r` seconds reads back as their total. */
  lemma ClockOf(n: nat, q: nat, r: nat)
    requires r < 60 && n == q * 60 + r
    ensures ParseClock(NatToString(q) + ":" + TwoDigits(r)) == Some(n)
  {
    NatToStringRoundTrip(q);
    TwoDigitsRoundTrip(r);
    ParseClockJoin(NatToString(q), TwoDigits(r));
  }

  /** Whole minutes and leftover seconds add back up to the seconds. */
  lemma WholeMinutes(n: nat)
    ensures n == (n / 60) * 60 + n % 60 && n % 60 < 60
  {
  }

  /** The clock text of `n` whole seconds reads back as `n`. */
  lemma ClockTextRoundTrip(n: nat)
    ensures ParseClock(ClockText(n)) == Some(n)
  {
    WholeMinutes(n);
    ClockOf(n, n / 60, n % 60);
  }

  /** The clock of a non-negative time reads back as its whole seconds, so two
      times show the same clock exactly when they share whole seconds. */
  lemma FormatTimeRoundTrip(x: real)
    requires x >= 0.0
    ensures ParseClock(FormatTime(x)) == Some(x.Floor)
  {
    ClockTextRoundTrip(x.Floor);
  }

  /** The clock for ninety-five and a half seconds. */
  lemma FormatTimeExample()
    ensures FormatTime(95.5) == "1:35"
    ensures FormatTime(0.0) == "0:00"
  {
    assert (95.5).Floor == 95 && (0.0).Floor == 0;
    assert NatToString(1) == "1" && NatToString(0) == "0";
  }

  /** Before the start the formula gives a floored minute and a truncated,
      negative second count: five seconds before zero reads `-1:0-5`. */
  lemma FormatTimeNegativeExample()
    ensures FormatTime(-5.0) == "-1:0-5"
  {
    assert (-5.0 / 60.0).Floor == -1;
    assert Trunc(-5.0 / 60.0) == 0;
    assert JsRemainder(-5.0, 60.0) == -5.0;
    assert NatToString(1) == "1";
    assert NatToString(5) == "5";
  }
}

=== FILE: video_id.dfy ===
/** `extractYoutubeVideoId` in src/utils/youtubeUtils.ts, and the player's
    choice of backend that rests on it. Parsing a URL is the browser's `URL`
    class and is not modelled: its outcome is a parameter. */
module VideoId {
  import opened Options
  import opened Strings

  /** The parts of a parsed URL the extractor reads: `hostname`, `pathname`,
      and the first `v` query parameter (`None` when absent). */
  datatype ParsedUrl = ParsedUrl(hostname: string, pathname: string, v: Option<string>)

  /** A bare video id: a `length` of eleven UTF-16 code units, with no '/'
      and no '.'. */
  predicate IsDirectId(url: string)
  {
    Utf16Length(url) == 11 && '/' !in url && '.' !in url
  }

  /** The length test counts code units, not characters: a character outside
      the Basic Multilingual Plane followed by nine inside it makes a length of
      eleven, so these ten characters pass as a bare id. */
  lemma AstralCharacterCountsTwice(c: char, rest: string)
    requires c as int > 0xFFFF
    requires |rest| == 9
    requires forall i :: 0 <= i < |rest| ==> rest[i] as int <= 0xFFFF && rest[i] != '/' && rest[i] != '.'
    ensures |[c] + rest| == 10
    ensures IsDirectId([c] + rest)
    ensures ExtractVideoId([c] + rest, None) == Some([c] + rest)
  {
    var s := [c] + rest;
    assert s[1..] == rest;
    assert Utf16Length(s) == 2 + Utf16Length(rest);
    assert forall i :: 1 <= i < |s| ==> s[i] == rest[i - 1];
  }

  /** An emoji followed by nine digits is taken as a bare id. */
  lemma EmojiIdExample()
    ensures IsDirectId("\U{1F600}123456789")
  {
    assert "\U{1F600}123456789" == ['\U{1F600}'] + "123456789";
    AstralCharacterCountsTwice('\U{1F600}', "123456789");
  }

  /** Eleven characters outside the Basic Multilingual Plane are too long for
      a bare id. */
  lemma ElevenAstralCharactersAreNoId()
    ensures !IsDirectId("\U{1F600}\U{1F600}\U{1F600}\U{1F600}\U{1F600}\U{1F600}\U{1F600}\U{1F600}\U{1F600}\U{1F600}\U{1F600}")
  {
    var faces := "\U{1F600}\U{1F600}\U{1F600}\U{1F600}\U{1F600}\U{1F600}\U{1F600}\U{1F600}\U{1F600}\U{1F600}\U{1F600}";
    assert Utf16Length(faces) == 2 + Utf16Length(faces[1..]);
  }

  /** For text inside the Basic Multilingual Plane the length test is the
      character count. */
  lemma DirectIdInPlane(url: string)
    requires forall i :: 0 <= i < |url| ==> url[i] as int <= 0xFFFF
    ensures IsDirectId(url) <==> |url| == 11 && '/' !in url && '.' !in url
  {
  }

  /** `pathname.substring(1)`. */
  function DropFirst(s: string): string
  {
    if |s| == 0 then "" else s[1..]
  }

  /** The id for `url`. `parsed` is what `new URL(url)` yields, `None` when it
      throws. A bare id is returned as it is; otherwise a host containing
      `youtube.com` yields the `v` parameter, the host `youtu.be` yields the
      path without its leading character, and anything else yields no id.
      Whatever is extracted is the bare id itself, or comes from a parsed
      `youtube.com` or `youtu.be` address. */
  function ExtractVideoId(url: string, parsed: Option<ParsedUrl>): (id: Option<string>)
    ensures IsDirectId(url) ==> id == Some(url)
    ensures id.Some? && !IsDirectId(url) ==>
              parsed.Some? &&
              ((Contains(parsed.value.hostname, "youtube.com") && id == parsed.value.v) ||
               (parsed.value.hostname == "youtu.be" && id.value == DropFirst(parsed.value.pathname)))
  {
    if IsDirectId(url) then Some(url)
    else if parsed.None? then None
    else if Contains(parsed.value.hostname, "youtube.com") then parsed.value.v
    else if parsed.value.hostname == "youtu.be" then Some(DropFirst(parsed.value.pathname))
    else None
  }

  /** The routing, stated with substring occurrence rather than the scan. */
  lemma ExtractVideoIdCases(url: string, parsed: Option<ParsedUrl>)
    ensures IsDirectId(url) ==> ExtractVideoId(url, parsed) == Some(url)
    ensures !IsDirectId(url) && parsed.None? ==> ExtractVideoId(url, parsed) == None
    ensures !IsDirectId(url) && parsed.Some? && (exists i :: OccursAt(parsed.value.hostname, "youtube.com", i)) ==>
              ExtractVideoId(url, parsed) == parsed.value.v
    ensures !IsDirectId(url) && parsed.Some? && parsed.value.hostname == "youtu.be" ==>
              ExtractVideoId(url, parsed) == Some(DropFirst(parsed.value.pathname))
    ensures !IsDirectId(url) && parsed.Some? && parsed.value.hostname != "youtu.be" &&
            (forall i :: !OccursAt(parsed.value.hostname, "youtube.com", i)) ==>
              ExtractVideoId(url, parsed) == None
  {
    if parsed.Some? {
      ContainsIff(parsed.value.hostname, "youtube.com");
      if parsed.value.hostname == "youtu.be" {
        ContainsShortHost();
      }
    }
  }

  /** `youtu.be` does not contain `youtube.com`, so the order in which the two
      host tests run does not matter. */
  lemma ContainsShortHost()
    ensures !Contains("youtu.be", "youtube.com")
  {
    if Contains("youtu.be", "youtube.com") {
      ContainsNeedsLength("youtu.be", "youtube.com");
    }
  }

  /** Short links round-trip: the id written after `youtu.be/` is the id
      extracted. */
  lemma ShortLinkRoundTrip(url: string, id: string, v: Option<string>)
    requires !IsDirectId(url)
    ensures ExtractVideoId(url, Some(ParsedUrl("youtu.be", "/" + id, v))) == Some(id)
  {
    ContainsShortHost();
    assert ("/" + id)[1..] == id;
  }

  /** Watch links round-trip: on any `youtube.com` host the `v` parameter is
      the id extracted. */
  lemma WatchLinkRoundTrip(url: string, host: string, path: string, id: string)
    requires !IsDirectId(url)
    requires exists i :: OccursAt(host, "youtube.com", i)
    ensures ExtractVideoId(url, Some(ParsedUrl(host, path, Some(id)))) == Some(id)
  {
    ContainsIff(host, "youtube.com");
  }

  /** The player treats a URL as a YouTube video when the extracted id is
      truthy, that is present and non-empty. */
  function IsYouTubeUrl(url: string, parsed: Option<ParsedUrl>): (r: bool)
    ensures r ==> ExtractVideoId(url, parsed).Some?
    ensures r <==> ExtractVideoId(url, parsed).Some? && ExtractVideoId(url, parsed).value != ""
  {
    match ExtractVideoId(url, parsed)
    case Some(id) => id != ""
    case None => false
  }

  /** A bare id is always played through YouTube, and `https://youtu.be/`
      with an empty path is not. */
  lemma BackendChoiceExamples(url: string, v: Option<string>)
    ensures IsDirectId(url) ==> IsYouTubeUrl(url, None)
    ensures !IsDirectId(url) ==> !IsYouTubeUrl(url, Some(ParsedUrl("youtu.be", "/", v)))
  {
    if !IsDirectId(url) {
      ShortLinkRoundTrip(url, "", v);
    }
  }
}
